=== FILE: README.md ===
# Tornado blog demo: compose, slugs and login, modelled in Dafny

The blog demo keeps two tables, `authors` and `entries`. Authors log in, compose
Markdown entries and reach each entry at `/entry/<slug>`. This project models the
decision logic of its request handlers as pure functions over an in-memory
database (`Store.Db`: both tables as maps from id to row, plus the next value of
each id sequence) and proves what they promise:

- the slug pipeline of a new entry's title (`Slug.Candidate`);
- the loop that appends `-2` until the slug is free (`Slug.Resolve`);
- the create and update branches of `ComposeHandler.post` (`Compose.ComposePost`),
  the edit form (`Compose.ComposeGet`) and the entry page (`Compose.EntryGet`);
- first-author creation and login (`Auth.CreatePost`, `Auth.LoginGet`,
  `Auth.LoginPost`);
- the home page and the Atom feed over the newest-first query result
  (`Listing.Home`, `Listing.Feed`).

Files: `wrappers.dfy` (Option), `text.dfy` (the `str` operations the pipeline
uses), `pyint.dfy` (`int()` and `str()` on ids), `slug.dfy`, `store.dfy`,
`http.dfy` (arguments, views, replies), `compose.dfy`, `auth.dfy`, `listing.dfy`.

Foreign code is a parameter:

- NFKD normalisation and Python's `\w` class form `Slug.Unicode`. The lemmas
  assume only `Slug.ValidUnicode`: on ASCII, `\w` is `[A-Za-z0-9_]`, and no
  whitespace character is a word character.
- The Markdown renderer is `Compose.Renderer`.
- bcrypt's `hashpw` and `checkpw` form `Auth.Hasher`. The salt is an argument.
- The current author, which the framework resolves from the signed cookie
  before the handler runs, is an `Option<Author>` argument. `CURRENT_TIMESTAMP`
  is the argument `now`.

Behaviour of the code worth noting:

- The UPDATE at demos/blog/blog.py:188-195 sets only `title`, `markdown` and
  `html`. `updated` is not refreshed, so `Compose.UpdatedOnly` keeps it.
- A non-numeric `id` makes `int(id)` raise `ValueError`, and an id outside the
  `id` column's range makes the database driver refuse the query argument. Only
  `NoResultError` is caught, so both replies are a server error (500), not a 404.
- `if id:` treats an empty `id` argument as absent, so it takes the create branch.

## Model

| member | source | states |
|---|---|---|
| Text.LowerChar | demos/blog/blog.py:199 | `lower()` turns each ASCII capital into the matching small letter of `a`-`z` and leaves every other character alone; it keeps each character's ASCII, word and whitespace class |
| Text.LowerExample | demos/blog/blog.py:199 | `"Hello World".lower()` is `"hello world"` |
| Text.StripStart | demos/blog/blog.py:199 | the left half of `strip()`: the result is a suffix, everything removed was whitespace, and it starts with non-whitespace |
| Text.StripEnd | demos/blog/blog.py:199 | the right half of `strip()`: the result is a prefix, everything removed was whitespace, and it ends with non-whitespace |
| Text.Strip | demos/blog/blog.py:199 | `strip()` leaves text no longer than before that starts and ends with non-whitespace |
| Text.Runs | demos/blog/blog.py:199 | the runs of a character class; a text starting inside the class yields a first run starting with that character (which runs come out is fixed by `Text.RunsWhole` and `Text.RunsSplit`) |
| Text.RunsWhole | demos/blog/blog.py:199 | a non-empty text made only of class characters is exactly one run, the whole text |
| Text.RunsSplit | demos/blog/blog.py:199 | a character outside the class separates: the runs of `a + [c] + b` are the runs of `a` followed by the runs of `b`, so no run crosses it and runs are maximal |
| Text.Split | demos/blog/blog.py:199 | `split()` yields non-empty words without whitespace (which words is `Text.SplitWord` with `Text.SplitAtSpace`) |
| Text.SplitWord | demos/blog/blog.py:199 | `split()` of a non-empty text without whitespace is that one word |
| Text.SplitAtSpace | demos/blog/blog.py:199 | `split()` cuts at every whitespace character: the words of `a + [c] + b` are those of `a` followed by those of `b` |
| Text.RunsConcat | demos/blog/blog.py:199 | the runs read one after the other are exactly the class characters of the text, in order |
| Text.RunsCount | demos/blog/blog.py:199 | there are exactly as many runs as positions where a class character follows a non-class character or the start |
| Text.RunsCountStarts | demos/blog/blog.py:199 | the run count equals the run starts counted position by position |
| Text.CountShift | demos/blog/blog.py:199 | past its first two positions a text starts runs where its tail does, one position later |
| Text.StartsBelowCard | demos/blog/blog.py:199 | the positional count of run starts is the size of the set of run starts |
| Text.RunsShape | demos/blog/blog.py:199 | every run is non-empty and made of characters of the class, all taken from the text |
| Text.RunsDropLast | demos/blog/blog.py:199 | a trailing character outside the class does not change the runs |
| Text.RunsAgree | demos/blog/blog.py:198-199 | runs depend only on how the class treats the characters that occur |
| Text.SplitLower | demos/blog/blog.py:199 | lower-casing before or after `split()` gives the same words |
| Text.SplitLowerExtend | demos/blog/blog.py:199 | the inductive step of `Text.SplitLower` where the first character joins the first word |
| Text.SplitLowerStart | demos/blog/blog.py:199 | the inductive step of `Text.SplitLower` where the first character starts a word that ends at once |
| Text.SplitStrip | demos/blog/blog.py:199 | `strip()` before `split()` changes nothing |
| Text.JoinChars | demos/blog/blog.py:199 | every character of `"-".join(ws)` is the hyphen or a character of one of the words |
| Text.Join | demos/blog/blog.py:199 | `sep.join(ws)` of one part is that part; it starts with the first part and is as long as the parts plus one separator per gap |
| Text.JoinAppend | demos/blog/blog.py:199 | joining two non-empty lists of parts is joining each, with one separator between them, so the parts stay in order |
| Text.JoinExample | demos/blog/blog.py:199 | `"-".join(["a", "b", "c"])` is `"a-b-c"` |
| Text.AsciiOnly | demos/blog/blog.py:200 | `encode("ascii", "ignore")` leaves only ASCII characters of the input, and leaves ASCII-only text unchanged |
| Text.Filter | demos/blog/blog.py:200 | keeping the characters of a class yields only class characters of the input, and all of a text made of them |
| Text.FilterAppend | demos/blog/blog.py:200 | filtering a concatenation is filtering each part |
| Text.AsciiOnlyChar | demos/blog/blog.py:200 | the ASCII filter keeps one ASCII character and drops one non-ASCII character |
| Text.AsciiOnlyAppend | demos/blog/blog.py:200 | the ASCII filter works part by part, so it keeps the ASCII characters in their order |
| Slug.SkipNonWord | demos/blog/blog.py:198 | skipping the leading non-word characters leaves the suffix of the text after them, which is empty or starts with a word character |
| Slug.Collapse | demos/blog/blog.py:198 | `re.sub(r"[^\w]+", " ", s)` leaves only word characters and spaces, is empty exactly for empty text, and keeps a leading word character or turns a leading non-word run into a space (the words are kept by `Slug.RunsCollapse`; one space per run is `Slug.CollapseSingle` with `Slug.CollapseEnd`) |
| Slug.CollapseSingle | demos/blog/blog.py:198 | where the space is not a word character, the result never has two spaces in a row: each non-word run becomes one space |
| Slug.CollapseEnd | demos/blog/blog.py:198 | the result ends with the text's last character when that is a word character; where the space is not a word character, it ends with a space exactly when the text ends with a non-word run |
| Slug.SkipKeepsLast | demos/blog/blog.py:198 | skipping a non-word run keeps the last character, or leaves nothing when the text ends with the run |
| Slug.RunsSkip | demos/blog/blog.py:198 | dropping leading non-word characters does not change the words |
| Slug.RunsCollapse | demos/blog/blog.py:198 | replacing each non-word run by one space does not change the words |
| Slug.Candidate | demos/blog/blog.py:197-202 | the candidate slug is never empty ("entry" when the pipeline yields nothing) and is pure ASCII |
| Slug.CandidateFromWords | demos/blog/blog.py:197-202 | the pipeline equals an independent definition: the lower-cased words of the normal form, joined by hyphens, non-ASCII dropped, "entry" if empty |
| Slug.WordChar | demos/blog/blog.py:198-200 | a character of a word is the lower case of a word character of the title; when ASCII it is one of `[a-z0-9_]` |
| Slug.JoinedWordChar | demos/blog/blog.py:198-200 | an ASCII character of the hyphen-joined words is one of `[a-z0-9_-]` |
| Slug.JoinedWordsAlphabet | demos/blog/blog.py:198-200 | what the ASCII filter keeps of the joined words is slug characters, none of them whitespace |
| Slug.FallbackAlphabet | demos/blog/blog.py:201-202 | the fallback "entry" is itself made of slug characters |
| Slug.CandidateAlphabet | demos/blog/blog.py:198-202 | every slug character is one of `[a-z0-9_-]`, so no slug holds whitespace |
| Slug.HyphenJoin | demos/blog/blog.py:199 | joining two well-hyphenated texts with one hyphen gives a well-hyphenated text |
| Slug.JoinHyphenated | demos/blog/blog.py:199 | hyphen-joined non-empty words without hyphens never start or end with a hyphen and never hold two in a row |
| Slug.JoinOfAsciiWords | demos/blog/blog.py:200 | for an ASCII title the ASCII filter drops nothing |
| Slug.WordsHyphenFree | demos/blog/blog.py:198-199 | for an ASCII title every word is non-empty and free of hyphens |
| Slug.AsciiTitleSlug | demos/blog/blog.py:198-202 | for an ASCII title the slug is "entry" when it has no words, and its words joined by single hyphens otherwise |
| Slug.LeadingHyphen | demos/blog/blog.py:198-200 | a title such as "日 go" gives "-go": dropping non-ASCII after joining can leave a leading hyphen |
| Slug.LongTakenShrinks | demos/blog/blog.py:203-207 | each `-2` appended removes a taken slug from the finitely many the loop can still meet, so the loop ends |
| Slug.SubsetCard | demos/blog/blog.py:203-207 | a subset is no larger than its superset (the termination argument's counting step) |
| Slug.Resolve | demos/blog/blog.py:203-207 | the collision loop ends with a slug no entry holds |
| Slug.DashesShift | demos/blog/blog.py:207 | `-2` followed by `k` copies of `-2` is `k + 1` copies, and `k` copies are `2k` characters long |
| Slug.ResolveShape | demos/blog/blog.py:203-207 | the loop result is the base followed by `k` copies of `-2`, with every shorter candidate taken |
| Slug.ResolveIsLeastFree | demos/blog/blog.py:203-207 | the result has exactly `k` suffixes if and only if base plus `k` suffixes is free and every shorter candidate is taken |
| Slug.SecondCollision | demos/blog/blog.py:203-207 | when the base and base `-2` are taken, the result is base `-2-2`, not `-3` |
| PyInt.DigitValue | demos/blog/blog.py:182 | a decimal digit's value is the position of the digit in `0123456789` |
| PyInt.ParseSigned | demos/blog/blog.py:182 | `int()` on stripped text accepts exactly a digit body with single underscores, or a sign followed by one, and yields its value with the sign applied |
| PyInt.ParseInt | demos/blog/blog.py:182 | `int(id)` refuses any text holding a separator U+001C to U+001F, strips the other whitespace and parses what is left; it succeeds only on text holding a digit |
| PyInt.ParseIntStrips | demos/blog/blog.py:182 | `int()` parses what `strip()` leaves, unless the text holds one of the separators U+001C to U+001F, which `int()` refuses |
| PyInt.SeparatorRefused | demos/blog/blog.py:182 | no signed digit body holds a separator U+001C to U+001F |
| PyInt.ParseIntSeparator | demos/blog/blog.py:182 | `int("\x1c7")` raises `ValueError`, although `strip()` would leave `"7"` |
| PyInt.ParseIntTrailingSeparator | demos/blog/blog.py:182 | `int("7\x1f")` raises `ValueError` |
| PyInt.ParseIntUnspaced | demos/blog/blog.py:182 | text without whitespace at either end is parsed as it stands |
| PyInt.StripSpaced | demos/blog/blog.py:182 | `" 7\n".strip()` is `"7"` |
| PyInt.ParseIntSpaced | demos/blog/blog.py:182 | `int(" 7\n") == 7`: surrounding whitespace is ignored |
| PyInt.ParseIntPlus | demos/blog/blog.py:182 | `int("+7") == 7` |
| PyInt.ParseIntMinus | demos/blog/blog.py:182 | `int("-7") == -7` |
| PyInt.ParseIntLeadingZeros | demos/blog/blog.py:182 | `int("007") == 7` |
| PyInt.LeadingZerosValue | demos/blog/blog.py:182 | the digits `007` have the value 7 |
| PyInt.ParseIntUnderscore | demos/blog/blog.py:182 | `int("1_000") == 1000` |
| PyInt.UnderscoreValue | demos/blog/blog.py:182 | the digits `1_000` have the value 1000 |
| PyInt.ParseIntEmpty | demos/blog/blog.py:182 | `int("")` raises `ValueError` |
| PyInt.ParseIntBlank | demos/blog/blog.py:182 | `int(" ")` raises `ValueError` |
| PyInt.ParseIntTrailing | demos/blog/blog.py:182 | `int("7a")` raises `ValueError` |
| PyInt.ParseIntDoubleUnderscore | demos/blog/blog.py:182 | `int("1__0")` raises `ValueError` |
| PyInt.ParseIntLeadingUnderscore | demos/blog/blog.py:182 | `int("_1")` raises `ValueError` |
| PyInt.ParseIntBareSign | demos/blog/blog.py:182 | `int("-")` raises `ValueError` |
| PyInt.NatToString | demos/blog/blog.py:241 | `str(n)` is a non-empty run of digits without a leading zero |
| PyInt.IntToString | demos/blog/blog.py:241 | `str(n)` starts with `-` exactly for negative `n`, and is digits after that |
| PyInt.NatToStringValue | demos/blog/blog.py:241 | the digits of `str(n)` have the value `n` |
| PyInt.NatToStringWellFormed | demos/blog/blog.py:241 | the digits `str(n)` writes form a body `int()` accepts |
| PyInt.StripUnspaced | demos/blog/blog.py:182 | `strip()` leaves text without whitespace at either end unchanged |
| PyInt.ParseSignedToString | demos/blog/blog.py:182 | the signed digit parser reads `str(n)` back as `n` |
| PyInt.StripIsInfix | demos/blog/blog.py:182 | `strip()` removes characters only |
| PyInt.ParseIntToString | demos/blog/blog.py:241 | `int(str(n)) == n`: an id written as text reads back as the same id |
| Store.Slugs | demos/blog/blog.py:204 | the slugs the collision query can find are exactly the stored entries' slugs |
| Store.Valid | demos/blog/blog.py:203-216 | the invariant the handlers keep (rows under their own ids, unique emails and slugs, entries owned by stored authors) leaves the next id of each sequence free |
| Store.IdInRange | demos/blog/blog.py:166 | the values the driver accepts for the `id` column: -2^31 to 2^31 - 1 (`Store.IdRangeBounds`) |
| Store.IdRangeBounds | demos/blog/blog.py:166 | 2^31 - 1 and -2^31 are in range; 2^31 and -2^31 - 1 are not |
| Store.LeastExists | demos/blog/blog.py:111-114 | a non-empty finite set of ids has a least element |
| Store.Least | demos/blog/blog.py:111-114 | the row `fetchrow` returns is fixed as the least matching id |
| Store.EntryWithSlug | demos/blog/blog.py:137 | the slug lookup finds nothing exactly when no entry holds the slug, and otherwise an entry holding it |
| Store.AuthorWithEmail | demos/blog/blog.py:255-257 | the email lookup finds nothing exactly when no author has the email, and otherwise an author with it |
| Store.EntryWithSlugUnique | demos/blog/blog.py:137 | with unique slugs, looking up an entry's slug finds that entry |
| Store.AuthorWithEmailUnique | demos/blog/blog.py:255-257 | with unique emails, looking up an author's email finds that author |
| Http.Arg | demos/blog/blog.py:174-176 | `get_argument(name, None)` is present exactly when the request carries the argument |
| Compose.NewSlug | demos/blog/blog.py:197-207 | the slug a new entry gets is held by no stored entry |
| Compose.EditEntry | demos/blog/blog.py:187-195 | the UPDATE changes only the title, markdown and html of that entry and redirects to its kept slug |
| Compose.AddEntry | demos/blog/blog.py:208-217 | the INSERT adds exactly one entry under the next id with the given author, title, slug, text, html and timestamps, and redirects to its slug |
| Compose.ComposePost | demos/blog/blog.py:172-217 | no author: login challenge; missing title or markdown: 400; malformed id or one outside the `id` column's range: 500; unknown id: 404 with the store unchanged; known id: only that entry's title, markdown and html change and the reply redirects to its kept slug; no id: one new entry owned by the current author, stamped `now`, under the resolved fresh slug, and a redirect to `/entry/` plus that slug |
| Compose.ComposeGet | demos/blog/blog.py:160-170 | no author: login challenge; no id: the blank form; malformed id or one outside the `id` column's range: 500; a stored id: the form filled with that entry; any other id: 404 |
| Compose.EntryGet | demos/blog/blog.py:135-141 | 404 exactly when no entry holds the slug; otherwise the page of an entry holding it |
| Compose.ComposePreservesValid | demos/blog/blog.py:179-216 | compose keeps the schema's constraints, including unique slugs and an existing author for every entry |
| Compose.EditPreservesValid | demos/blog/blog.py:188-195 | an edit keeps the schema's constraints |
| Compose.AddPreservesValid | demos/blog/blog.py:203-216 | inserting an entry under a free slug by a stored author keeps the schema's constraints |
| Compose.ComposeThenView | demos/blog/blog.py:179-217 | a compose by a stored author that creates an entry, or edits a stored one whose id is in the column's range, redirects, and the target shows the entry with the submitted title, markdown and its rendering |
| Compose.ComposeGetMatchesPost | demos/blog/blog.py:160-195 | the entry the edit form opens is the one the post updates and redirects to; an id the form rejects, the post rejects the same way |
| Compose.ComposeRedirectsToNewSlug | demos/blog/blog.py:196-217 | without an id, compose redirects to `/entry/` plus the new entry's resolved slug |
| Compose.EmptyIdCreates | demos/blog/blog.py:179 | `if id:` (`Http.Truthy`) sends an empty `id` to the create branch, although `int("")` would fail |
| Http.Truthy | demos/blog/blog.py:164 | `if id:` holds for a present, non-empty argument (`Http.TruthyCases`) |
| Http.TruthyCases | demos/blog/blog.py:164 | a missing or empty argument is false; `"0"` and `" "` are true, so they reach `int()` |
| Compose.ThirdAlikeTitle | demos/blog/blog.py:196-217 | a third entry whose candidate and candidate `-2` are taken lands at `/entry/` plus candidate `-2-2`, not `-3` |
| Auth.NextUrl | demos/blog/blog.py:242 | the redirect target is the `next` argument, by default `/` |
| Auth.CreatePost | demos/blog/blog.py:224-242 | with any author present: 400 "author already created", nothing added; missing fields: 400, nothing added; otherwise one author with the hashed password under a fresh id, that id set in the session and a redirect to `next` |
| Auth.LoginGet | demos/blog/blog.py:246-251 | redirects to `/auth/create` exactly when no author exists; otherwise shows the login form without error |
| Auth.LoginGetTracksCreate | demos/blog/blog.py:224-251 | the login page redirects to `/auth/create` exactly while creation is still open, and shows its form after a successful creation |
| Auth.LoginPost | demos/blog/blog.py:253-273 | unknown email: form with "email not found"; wrong password: form with "incorrect password"; match: that author's id in the session and a redirect to `next` or `/`; the session is never cleared |
| Auth.CreatePreservesValid | demos/blog/blog.py:233-239 | creating the first author keeps the schema's constraints |
| Auth.CreateOnlyOnce | demos/blog/blog.py:225-226 | a creation adds at most one author; once one exists, every later attempt gets 400 and changes nothing |
| Auth.LoginSessionNamesAuthor | demos/blog/blog.py:269-271 | the session value a login writes reads back with `int()` as the id of the author with that email whose password checked |
| Auth.CreateThenLogin | demos/blog/blog.py:224-273 | logging in with the creation form's email and password succeeds with the same redirect and session as the creation |
| Listing.Home | demos/blog/blog.py:124-131 | the home page redirects to `/compose` exactly when there are no entries, and otherwise lists the first rows up to the limit |
| Listing.Limit | demos/blog/blog.py:125-127 | `LIMIT n` keeps the first `min(n, len)` rows, in order |
| Listing.Feed | demos/blog/blog.py:151-156 | the feed renders the first `min(10, len)` rows as `application/atom+xml` and leaves the session alone |
| Listing.LimitKeepsNewest | demos/blog/blog.py:125-127 | `LIMIT n` keeps the first `min(n, len)` rows, still newest first, none left out newer than one kept |
| Listing.HomeShowsNewest | demos/blog/blog.py:124-131 | with entries, the home page shows 1 to 5 of them, exactly 5 when there are that many, and no entry left out is newer |
| Listing.FeedShowsNewest | demos/blog/blog.py:151-156 | the feed holds at most 10 entries, exactly 10 when there are that many, newest first, none left out newer, as `application/atom+xml` |

## Left out

- Database access (`fetch`, `fetchrow`, `execute`, the `query` wrappers, `maybe_create_tables`): replaced by the in-memory `Store.Db`. Ids come from a modelled sequence counter.
- The `ORDER BY published DESC` sorting: `Listing` takes the query's rows, and its lemmas assume them newest first (`Listing.NewestFirst`).
- `ArchiveHandler.get` and `AuthLogoutHandler.get`: they only render every row or clear the cookie and redirect. They have no decision to verify.
- NFKD normalisation and Python's Unicode `\w`: taken as the parameter `Slug.Unicode`.
- Text.LowerChar: lowers only ASCII letters and leaves other characters unchanged. Python's Unicode `lower()` differs only on non-ASCII characters, which the slug drops afterwards. No character left after NFKD lower-cases to ASCII.
- Markdown rendering and bcrypt: opaque parameters. Hashing on a worker thread is concurrency and is not modelled.
- `BaseHandler.prepare`: the signed cookie and the lookup of the current author are framework and crypto code. Handlers receive the resolved author.
- Compose.ComposePost, Compose.ComposeGet: the `@authenticated` challenge is the single reply `LoginRequired`. The framework's choice between a redirect to the login page and a 403 is not modelled.
- Request argument decoding: the framework replaces U+0000 to U+0008 and U+000E to U+001F by spaces, strips whitespace, and keeps the last value of repeated arguments. `Http.Args` holds the decoded values. So a separator U+001C to U+001F never reaches `int(id)` from a request; `PyInt.ParseInt` still refuses one as `int()` does.
- Text.Strip: the contract states only the non-whitespace ends and the length bound; which characters are cut is pinned by `Text.StripStart`, `Text.StripEnd` and `PyInt.StripSpaced`.
- PyInt.ParseInt: accepts ASCII digits only. Python's `int()` also accepts other Unicode decimal digits, and it refuses more than 4300 digits.
- Templates, `EntryModule`, XSRF, the route table, options and `main`: framework and process bootstrap.
- The duplicate-slug race between concurrent compose requests: the model handles one request at a time.
- schema.sql is not part of this model. The `id` columns are taken to be `SERIAL`, PostgreSQL's 4-byte `integer`, so `Store.IdInRange` is the range from -2^31 to 2^31 - 1. A wider column type would move only that bound.
- Compose.AddEntry: the `SERIAL` sequence running past its maximum makes the INSERT fail. The model keeps numbering past it.
- Store.Least: `fetchrow` returns whichever matching row the database yields. The model fixes that choice as the least id, and the uniqueness lemmas show the choice does not matter.

=== FILE: auth.dfy ===
/**
 Author creation and login: `AuthCreateHandler.post`, `AuthLoginHandler.get` and
 `.post`.
 */
module Auth {
  import opened Wrappers
  import opened PyInt
  import opened Store
  import opened Http

  /** bcrypt's `hashpw(password, salt)` and `checkpw(password, hashed)`, taken as given. */
  datatype Hasher = Hasher(hashpw: (string, string) -> string, checkpw: (string, string) -> bool)

  /** Where a successful form post goes: the `next` argument, by default the home page. */
  function NextUrl(args: Args): (url: string)
    ensures "next" in args ==> url == args["next"]
    ensures "next" !in args ==> url == "/"
  {
    Arg(args, "next").GetOr("/")
  }

  /**
   `AuthCreateHandler.post`: only while no author exists, store one with the
   hashed password, log it in and redirect. `salt` is `bcrypt.gensalt()`.
   */
  function CreatePost(db: Db, args: Args, h: Hasher, salt: string): (s: Step)
    requires Valid(db)
    ensures |db.authors| > 0 ==> s == Step(db, Reply(Error(400, Some("author already created")), Keep))
    ensures |db.authors| == 0 && "password" !in args ==> s == Step(db, Reply(MissingArgument("password"), Keep))
    ensures |db.authors| == 0 && "password" in args && "email" !in args ==>
              s == Step(db, Reply(MissingArgument("email"), Keep))
    ensures |db.authors| == 0 && "password" in args && "email" in args && "name" !in args ==>
              s == Step(db, Reply(MissingArgument("name"), Keep))
    ensures |db.authors| == 0 && "password" in args && "email" in args && "name" in args ==>
              var id := db.nextAuthorId;
              && id !in db.authors
              && s.db.authors.Keys == db.authors.Keys + {id}
              && s.db.authors[id] == Author(id, args["email"], args["name"], h.hashpw(args["password"], salt))
              && s.db.entries == db.entries
              && s.db.nextEntryId == db.nextEntryId
              && s.db.nextAuthorId == id + 1
              && s.reply == Reply(Redirect(NextUrl(args)), LogIn(IntToString(id)))
    ensures s.reply.response.Redirect? <==> (|db.authors| == 0 && "password" in args && "email" in args && "name" in args)
    ensures !s.reply.response.Redirect? ==> s.db == db && s.reply.session == Keep
  {
    if |db.authors| > 0 then Step(db, Reply(Error(400, Some("author already created")), Keep))
    else match Arg(args, "password")
      case None => Step(db, Reply(MissingArgument("password"), Keep))
      case Some(password) =>
        var hashed := h.hashpw(password, salt);
        match (Arg(args, "email"), Arg(args, "name"))
        case (None, _) => Step(db, Reply(MissingArgument("email"), Keep))
        case (Some(_), None) => Step(db, Reply(MissingArgument("name"), Keep))
        case (Some(email), Some(name)) =>
          var author := Author(db.nextAuthorId, email, name, hashed);
          var db' := db.(authors := db.authors[author.id := author], nextAuthorId := author.id + 1);
          Step(db', Reply(Redirect(NextUrl(args)), LogIn(IntToString(author.id))))
  }

  /** `AuthLoginHandler.get`: with no author yet, send the visitor to create one. */
  function LoginGet(db: Db): (r: Reply)
    ensures r.session == Keep
    ensures r.response.Redirect? <==> |db.authors| == 0
    ensures r.response.Redirect? ==> r.response.location == "/auth/create"
    ensures !r.response.Redirect? ==> r.response == Render(LoginForm(None), None)
  {
    if |db.authors| == 0 then Reply(Redirect("/auth/create"), Keep)
    else Reply(Render(LoginForm(None), None), Keep)
  }

  /**
   `AuthLoginHandler.post`: find the author by email, check the password, and on
   a match log that author in and redirect. Emails are unique, so at most one
   author can match.
   */
  function LoginPost(db: Db, args: Args, h: Hasher): (r: Reply)
    requires Valid(db)
    ensures "email" !in args ==> r == Reply(MissingArgument("email"), Keep)
    ensures "email" in args && (forall k :: k in db.authors ==> db.authors[k].email != args["email"]) ==>
              r == Reply(Render(LoginForm(Some("email not found")), None), Keep)
    ensures forall k :: k in db.authors && "email" in args && db.authors[k].email == args["email"] ==>
              if "password" !in args then r == Reply(MissingArgument("password"), Keep)
              else if h.checkpw(args["password"], db.authors[k].hashedPassword)
              then r == Reply(Redirect(NextUrl(args)), LogIn(IntToString(k)))
              else r == Reply(Render(LoginForm(Some("incorrect password")), None), Keep)
    ensures r.session == Keep || r.session.LogIn?
  {
    match Arg(args, "email")
    case None => Reply(MissingArgument("email"), Keep)
    case Some(email) =>
      match AuthorWithEmail(db.authors, email)
      case None => Reply(Render(LoginForm(Some("email not found")), None), Keep)
      case Some(k) =>
        var author := db.authors[k];
        match Arg(args, "password")
        case None => Reply(MissingArgument("password"), Keep)
        case Some(password) =>
          if h.checkpw(password, author.hashedPassword) then
            Reply(Redirect(NextUrl(args)), LogIn(IntToString(author.id)))
          else Reply(Render(LoginForm(Some("incorrect password")), None), Keep)
  }

  // ---------------------------------------------------------------------------
  // Properties across calls
  // ---------------------------------------------------------------------------

  /** Creating the first author keeps the schema's constraints. */
  lemma CreatePreservesValid(db: Db, args: Args, h: Hasher, salt: string)
    requires Valid(db)
    ensures Valid(CreatePost(db, args, h, salt).db)
  {
  }

  /** A second creation attempt is refused and adds nobody. */
  lemma CreateOnlyOnce(db: Db, args: Args, args': Args, h: Hasher, salt: string, salt': string)
    requires Valid(db)
    ensures Valid(CreatePost(db, args, h, salt).db)
    ensures var s := CreatePost(db, args, h, salt);
            && |s.db.authors| <= 1 + |db.authors|
            && (s.reply.response.Redirect? ==> |s.db.authors| == 1)
            && (s.reply.response.Redirect? ==>
                  CreatePost(s.db, args', h, salt') == Step(s.db, Reply(Error(400, Some("author already created")), Keep)))
  {
    var s := CreatePost(db, args, h, salt);
    if s.reply.response.Redirect? {
      assert s.db.authors.Keys == {db.nextAuthorId};
      CreatePreservesValid(db, args, h, salt);
    }
  }

  /**
   The login page sends visitors to the creation form exactly while creating an
   author is still open, and a successful creation closes it: afterwards the
   login page shows its form.
   */
  lemma LoginGetTracksCreate(db: Db, args: Args, h: Hasher, salt: string)
    requires Valid(db)
    ensures LoginGet(db).response.Redirect?
        <==> CreatePost(db, args, h, salt).reply.response != Error(400, Some("author already created"))
    ensures var s := CreatePost(db, args, h, salt);
            s.reply.response.Redirect? ==> LoginGet(s.db).response == Render(LoginForm(None), None)
  {
    var s := CreatePost(db, args, h, salt);
    if s.reply.response.Redirect? {
      assert db.nextAuthorId in s.db.authors;
      assert |s.db.authors| > 0 by {
        assert s.db.authors.Keys != {};
      }
    }
  }

  /**
   The session value a login writes is the author's id as text, and reads back
   with `int()` as that id.
   */
  lemma LoginSessionNamesAuthor(db: Db, args: Args, h: Hasher)
    requires Valid(db)
    requires LoginPost(db, args, h).session.LogIn?
    ensures var k := ParseInt(LoginPost(db, args, h).session.userId);
            && k.Some? && k.value in db.authors
            && db.authors[k.value].email == args["email"]
            && h.checkpw(args["password"], db.authors[k.value].hashedPassword)
  {
    var k := AuthorWithEmail(db.authors, args["email"]).value;
    ParseIntToString(k);
  }

  /**
   Logging in with the form that created the first author succeeds, when the hash
   checks against its own password: the same redirect and the same session.
   */
  lemma CreateThenLogin(db: Db, args: Args, h: Hasher, salt: string)
    requires Valid(db) && |db.authors| == 0
    requires "password" in args && "email" in args && "name" in args
    requires h.checkpw(args["password"], h.hashpw(args["password"], salt))
    ensures var s := CreatePost(db, args, h, salt);
            Valid(s.db) && s.reply.response.Redirect? && LoginPost(s.db, args, h) == s.reply
  {
    CreatePreservesValid(db, args, h, salt);
  }
}

=== FILE: compose.dfy ===
/**
 The compose flow: `ComposeHandler.get` and `.post` and the entry page the post
 redirects to, over the entry table.
 */
module Compose {
  import opened Wrappers
  import opened PyInt
  import opened Slug
  import opened Store
  import opened Http

  /** The markdown renderer, a library function taken as given. */
  type Renderer = string -> string

  /**
   `after` differs from `before` only in the title, markdown and html of entry
   `id`: its slug, author and timestamps, every other entry and the authors stay.
   */
  predicate UpdatedOnly(before: Db, after: Db, id: int, title: string, text: string, html: string) {
    && id in before.entries
    && after.authors == before.authors
    && after.nextAuthorId == before.nextAuthorId
    && after.nextEntryId == before.nextEntryId
    && after.entries.Keys == before.entries.Keys
    && (forall k :: k in before.entries && k != id ==> after.entries[k] == before.entries[k])
    && var was, now := before.entries[id], after.entries[id];
       && now.title == title && now.markdown == text && now.html == html
       && now.id == was.id && now.authorId == was.authorId && now.slug == was.slug
       && now.published == was.published && now.updated == was.updated
  }

  /**
   `after` is `before` with exactly one new entry, stored under the next id of the
   sequence, whose slug no entry of `before` had.
   */
  predicate InsertedOne(before: Db, after: Db, e: Entry) {
    && e.id == before.nextEntryId
    && e.id !in before.entries
    && e.slug !in Slugs(before.entries)
    && after.entries.Keys == before.entries.Keys + {e.id}
    && e.id in after.entries && after.entries[e.id] == e
    && (forall k :: k in before.entries ==> after.entries[k] == before.entries[k])
    && after.authors == before.authors
    && after.nextAuthorId == before.nextAuthorId
    && after.nextEntryId == before.nextEntryId + 1
  }

  /** The slug a new entry titled `title` gets in `db`. */
  function NewSlug(db: Db, u: Unicode, title: string): (slug: string)
    ensures slug !in Slugs(db.entries)
  {
    Resolve(Candidate(u, title), Slugs(db.entries))
  }

  /** The edit branch: `UPDATE entries SET title, markdown, html WHERE id = $4`, then back to the entry. */
  function EditEntry(db: Db, id: int, title: string, text: string, html: string): (s: Step)
    requires id in db.entries
    ensures UpdatedOnly(db, s.db, id, title, text, html)
    ensures s.reply == Reply(Redirect("/entry/" + db.entries[id].slug), Keep)
  {
    var entry := db.entries[id];
    var edited := entry.(title := title, markdown := text, html := html);
    Step(db.(entries := db.entries[id := edited]), Reply(Redirect("/entry/" + entry.slug), Keep))
  }

  /**
   The create branch: `INSERT INTO entries` under the next id with a slug no
   entry holds, then on to the new entry.
   */
  function AddEntry(db: Db, authorId: int, title: string, slug: string, text: string, html: string, now: Timestamp): (s: Step)
    requires Valid(db) && slug !in Slugs(db.entries)
    ensures db.nextEntryId in s.db.entries
    ensures var e := s.db.entries[db.nextEntryId];
            && InsertedOne(db, s.db, e)
            && e.authorId == authorId && e.title == title && e.slug == slug
            && e.markdown == text && e.html == html
            && e.published == now && e.updated == now
    ensures s.reply == Reply(Redirect("/entry/" + slug), Keep)
  {
    var entry := Entry(db.nextEntryId, authorId, title, slug, text, html, now, now);
    var db' := db.(entries := db.entries[entry.id := entry], nextEntryId := db.nextEntryId + 1);
    Step(db', Reply(Redirect("/entry/" + slug), Keep))
  }

  /**
   `ComposeHandler.post`. `user` is the author the session resolved to; `now` is
   the database's `CURRENT_TIMESTAMP`.
   */
  function ComposePost(db: Db, user: Option<Author>, args: Args, render: Renderer, u: Unicode, now: Timestamp): (s: Step)
    requires Valid(db)
    // Without a current author nothing happens but the login challenge.
    ensures user.None? ==> s == Step(db, Reply(LoginRequired, Keep))
    // The required form fields, in the order the handler reads them.
    ensures user.Some? && "title" !in args ==> s == Step(db, Reply(MissingArgument("title"), Keep))
    ensures user.Some? && "title" in args && "markdown" !in args ==>
              s == Step(db, Reply(MissingArgument("markdown"), Keep))
    // A malformed id raises ValueError and an id outside the column's range makes
    // the driver raise: both are a 500. An id that matches no entry is a 404.
    ensures user.Some? && "title" in args && "markdown" in args && Truthy(Arg(args, "id")) ==>
              match ParseInt(args["id"])
              case None => s == Step(db, Reply(ServerError, Keep))
              case Some(n) =>
                if !IdInRange(n) then s == Step(db, Reply(ServerError, Keep))
                else if n in db.entries then
                  && UpdatedOnly(db, s.db, n, args["title"], args["markdown"], render(args["markdown"]))
                  && s.reply == Reply(Redirect("/entry/" + db.entries[n].slug), Keep)
                else s == Step(db, Reply(NotFound, Keep))
    // No id: one new entry owned by the current author, under a fresh slug.
    ensures user.Some? && "title" in args && "markdown" in args && !Truthy(Arg(args, "id")) ==>
              && db.nextEntryId in s.db.entries
              && var e := s.db.entries[db.nextEntryId];
                 && InsertedOne(db, s.db, e)
                 && e.authorId == user.value.id
                 && e.title == args["title"]
                 && e.slug == NewSlug(db, u, args["title"])
                 && e.markdown == args["markdown"] && e.html == render(args["markdown"])
                 && e.published == now && e.updated == now
                 && s.reply == Reply(Redirect("/entry/" + e.slug), Keep)
  {
    if user.None? then Step(db, Reply(LoginRequired, Keep))
    else
      var id := Arg(args, "id");
      match (Arg(args, "title"), Arg(args, "markdown"))
      case (None, _) => Step(db, Reply(MissingArgument("title"), Keep))
      case (Some(_), None) => Step(db, Reply(MissingArgument("markdown"), Keep))
      case (Some(title), Some(text)) =>
        var html := render(text);
        if Truthy(id) then
          match ParseInt(id.value)
          case None => Step(db, Reply(ServerError, Keep))
          case Some(n) =>
            if !IdInRange(n) then Step(db, Reply(ServerError, Keep))
            else if n !in db.entries then Step(db, Reply(NotFound, Keep))
            else EditEntry(db, n, title, text, html)
        else AddEntry(db, user.value.id, title, NewSlug(db, u, title), text, html, now)
  }

  /** `ComposeHandler.get`: the blank form, or the form filled with the entry being edited. */
  function ComposeGet(db: Db, user: Option<Author>, args: Args): (r: Reply)
    requires Valid(db)
    ensures r.session == Keep
    ensures user.None? ==> r.response == LoginRequired
    ensures user.Some? && !Truthy(Arg(args, "id")) ==> r.response == Render(ComposeForm(None), None)
    // A malformed id or one outside the column's range is a 500; a stored id opens
    // that entry; any other is a 404.
    ensures user.Some? && Truthy(Arg(args, "id")) ==>
              match ParseInt(args["id"])
              case None => r.response == ServerError
              case Some(n) =>
                if !IdInRange(n) then r.response == ServerError
                else if n in db.entries then r.response == Render(ComposeForm(Some(db.entries[n])), None)
                else r.response == NotFound
    ensures r.response.Render? ==> r.response.view.ComposeForm?
    ensures r.response.Render? && r.response.view.editing.Some? ==>
              var e := r.response.view.editing.value;
              e.id in db.entries && db.entries[e.id] == e
  {
    if user.None? then Reply(LoginRequired, Keep)
    else
      var id := Arg(args, "id");
      if !Truthy(id) then Reply(Render(ComposeForm(None), None), Keep)
      else match ParseInt(id.value)
        case None => Reply(ServerError, Keep)
        case Some(n) =>
          if !IdInRange(n) then Reply(ServerError, Keep)
          else if n in db.entries then Reply(Render(ComposeForm(Some(db.entries[n])), None), Keep)
          else Reply(NotFound, Keep)
  }

  /** `EntryHandler.get`: the entry holding `slug`, or 404. */
  function EntryGet(db: Db, slug: string): (r: Reply)
    ensures r.session == Keep
    ensures slug !in Slugs(db.entries) <==> r.response == NotFound
    ensures r.response != NotFound ==>
              exists k :: k in db.entries && db.entries[k].slug == slug
                          && r.response == Render(EntryPage(db.entries[k]), None)
  {
    match EntryWithSlug(db.entries, slug)
    case None => Reply(NotFound, Keep)
    case Some(k) => Reply(Render(EntryPage(db.entries[k]), None), Keep)
  }

  // ---------------------------------------------------------------------------
  // Properties across calls
  // ---------------------------------------------------------------------------

  /**
   The edit form and its submission agree: an id the form opens for editing is
   the entry the post updates, and the post redirects to that entry's slug; an id
   the form rejects is rejected by the post the same way, leaving the store alone.
   */
  lemma ComposeGetMatchesPost(db: Db, user: Option<Author>, args: Args, render: Renderer, u: Unicode, now: Timestamp)
    requires Valid(db)
    requires "title" in args && "markdown" in args && Truthy(Arg(args, "id"))
    ensures var form := ComposeGet(db, user, args).response;
            var s := ComposePost(db, user, args, render, u, now);
            && (form.Render? ==>
                  var e := form.view.editing.value;
                  && UpdatedOnly(db, s.db, e.id, args["title"], args["markdown"], render(args["markdown"]))
                  && s.reply.response == Redirect("/entry/" + e.slug))
            && (!form.Render? ==> s.db == db && s.reply.response == form)
  {
  }

  /** An edit keeps every slug, author and id where it was. */
  lemma EditPreservesValid(db: Db, id: int, title: string, text: string, html: string)
    requires Valid(db) && id in db.entries
    ensures Valid(EditEntry(db, id, title, text, html).db)
  {
    var after := EditEntry(db, id, title, text, html).db;
    forall a, b | a in after.entries && b in after.entries && a != b
      ensures after.entries[a].slug != after.entries[b].slug
    {
      assert after.entries[a].slug == db.entries[a].slug;
      assert after.entries[b].slug == db.entries[b].slug;
    }
  }

  /** A new entry under a free slug, by a stored author, keeps the constraints. */
  lemma {:induction false} AddPreservesValid(db: Db, authorId: int, title: string, slug: string, text: string, html: string, now: Timestamp)
    requires Valid(db) && slug !in Slugs(db.entries) && authorId in db.authors
    ensures Valid(AddEntry(db, authorId, title, slug, text, html, now).db)
  {
    var after := AddEntry(db, authorId, title, slug, text, html, now).db;
    var id := db.nextEntryId;
    forall a, b | a in after.entries && b in after.entries && a != b
      ensures after.entries[a].slug != after.entries[b].slug
    {
      if a == id {
        assert db.entries[b].slug in Slugs(db.entries);
      } else if b == id {
        assert db.entries[a].slug in Slugs(db.entries);
      }
    }
  }

  /**
   Compose keeps the schema's constraints, slug uniqueness above all: an edit keeps
   the slug, and a new entry's slug was free. The current author must be a stored
   author, as the session resolves it from the table.
   */
  lemma ComposePreservesValid(db: Db, user: Option<Author>, args: Args, render: Renderer, u: Unicode, now: Timestamp)
    requires Valid(db)
    requires user.Some? ==> user.value.id in db.authors
    ensures Valid(ComposePost(db, user, args, render, u, now).db)
  {
    if user.Some? && "title" in args && "markdown" in args {
      var title, text := args["title"], args["markdown"];
      if !Truthy(Arg(args, "id")) {
        AddPreservesValid(db, user.value.id, title, NewSlug(db, u, title), text, render(text), now);
      } else if ParseInt(args["id"]).Some? {
        var n := ParseInt(args["id"]).value;
        if IdInRange(n) && n in db.entries {
          EditPreservesValid(db, n, title, text, render(text));
          assert ComposePost(db, user, args, render, u, now) == EditEntry(db, n, title, text, render(text));
        } else {
          assert ComposePost(db, user, args, render, u, now).db == db;
        }
      } else {
        assert ComposePost(db, user, args, render, u, now).db == db;
      }
    } else {
      assert ComposePost(db, user, args, render, u, now).db == db;
    }
  }

  /**
   A compose by a stored author that creates an entry or edits a stored one
   redirects, and the redirect target shows the entry just written, with the
   submitted markdown and its rendering.
   */
  lemma ComposeThenView(db: Db, user: Option<Author>, args: Args, render: Renderer, u: Unicode, now: Timestamp)
    requires Valid(db)
    requires user.Some? && user.value.id in db.authors
    requires "title" in args && "markdown" in args
    requires Truthy(Arg(args, "id")) ==>
               ParseInt(args["id"]).Some? && ParseInt(args["id"]).value in db.entries && IdInRange(ParseInt(args["id"]).value)
    ensures var s := ComposePost(db, user, args, render, u, now);
            && s.reply.response.Redirect?
            && exists slug :: && s.reply.response.location == "/entry/" + slug
                           && EntryGet(s.db, slug).response.Render?
                           && var e := EntryGet(s.db, slug).response.view.entry;
                              e.title == args["title"] && e.markdown == args["markdown"]
                              && e.html == render(args["markdown"])
  {
    var s := ComposePost(db, user, args, render, u, now);
    ComposePreservesValid(db, user, args, render, u, now);
    var k: int, slug: string;
    if Truthy(Arg(args, "id")) {
      k := ParseInt(args["id"]).value;
      slug := db.entries[k].slug;
    } else {
      k := db.nextEntryId;
      slug := s.db.entries[k].slug;
    }
    assert s.db.entries[k].slug == slug;
    EntryWithSlugUnique(s.db, k);
    assert s.reply.response.location == "/entry/" + slug;
  }

  /** Without an id, compose sends the author to the new entry's slug. */
  lemma ComposeRedirectsToNewSlug(db: Db, user: Option<Author>, args: Args, render: Renderer, u: Unicode, now: Timestamp)
    requires Valid(db) && user.Some?
    requires "title" in args && "markdown" in args && "id" !in args
    ensures ComposePost(db, user, args, render, u, now).reply.response
         == Redirect("/entry/" + NewSlug(db, u, args["title"]))
  {
    assert !Truthy(Arg(args, "id"));
  }

  /**
   `if id:` treats an empty `id` like a missing one: the post creates a new entry
   instead of parsing the empty text.
   */
  lemma EmptyIdCreates(db: Db, user: Option<Author>, args: Args, render: Renderer, u: Unicode, now: Timestamp)
    requires Valid(db) && user.Some?
    requires "title" in args && "markdown" in args && "id" in args && args["id"] == ""
    ensures var s := ComposePost(db, user, args, render, u, now);
            && ParseInt(args["id"]).None?
            && db.nextEntryId in s.db.entries
            && InsertedOne(db, s.db, s.db.entries[db.nextEntryId])
  {
    assert !Truthy(Arg(args, "id"));
  }

  /**
   Two entries titled alike already hold the candidate and the candidate with "-2":
   the third gets "-2-2", not "-3".
   */
  lemma ThirdAlikeTitle(db: Db, user: Option<Author>, args: Args, render: Renderer, u: Unicode, now: Timestamp)
    requires Valid(db) && user.Some?
    requires "title" in args && "markdown" in args && "id" !in args
    requires var c := Candidate(u, args["title"]);
             c in Slugs(db.entries) && c + "-2" in Slugs(db.entries) && c + "-2-2" !in Slugs(db.entries)
    ensures ComposePost(db, user, args, render, u, now).reply.response
         == Redirect("/entry/" + (Candidate(u, args["title"]) + "-2-2"))
  {
    var c := Candidate(u, args["title"]);
    SecondCollision(c, Slugs(db.entries));
    assert NewSlug(db, u, args["title"]) == c + "-2-2";
    ComposeRedirectsToNewSlug(db, user, args, render, u, now);
  }
}

=== FILE: http.dfy ===
/**
 What a handler sees of a request and what it produces: request arguments,
 the rendered view or redirect or error, and the effect on the session cookie.
 */
module Http {
  import opened Wrappers
  import opened Store

  /** Request arguments after the framework has decoded them, one value per name. */
  type Args = map<string, string>

  /** `get_argument(name, None)` */
  function Arg(args: Args, name: string): (r: Option<string>)
    ensures r.Some? <==> name in args
    ensures r.Some? ==> r.value == args[name]
  {
    if name in args then Some(args[name]) else None
  }

  /** A template with the values handed to it. */
  datatype View =
    | HomePage(entries: seq<Entry>)
    | FeedDocument(entries: seq<Entry>)
    | EntryPage(entry: Entry)
    | ComposeForm(editing: Option<Entry>)
    | LoginForm(error: Option<string>)

  datatype Response =
    | Render(view: View, contentType: Option<string>)  // None: the framework's default HTML type
    | Redirect(location: string)
    | Error(status: int, message: Option<string>)      // an `HTTPError` or an uncaught exception
    | MissingArgument(name: string)                    // `get_argument` without default: status 400
    | LoginRequired                                    // the `@authenticated` challenge

  /** What the handler does to the signed `blogdemo_user` cookie. */
  datatype Session = Keep | LogIn(userId: string)

  datatype Reply = Reply(response: Response, session: Session)

  /** A handler that may write: the database afterwards and the reply. */
  datatype Step = Step(db: Db, reply: Reply)

  const NotFound: Response := Error(404, None)

  /**
   An uncaught exception surfaces as status 500: the `ValueError` of `int()` on a
   malformed id, or the driver refusing an id outside the column's range
   (`Store.IdInRange`).
   */
  const ServerError: Response := Error(500, None)

  /** `if value:` on an optional argument: present and non-empty. */
  predicate Truthy(v: Option<string>) {
    v.Some? && v.value != ""
  }

  /** A missing or empty argument is false; any other text is true, `"0"` and `" "` included. */
  lemma TruthyCases()
    ensures !Truthy(None) && !Truthy(Some(""))
    ensures Truthy(Some("0")) && Truthy(Some(" "))
  {
  }
}

=== FILE: listing.dfy ===
/**
 The read-only listings: the home page and the Atom feed. Each is
 given the rows of `SELECT * FROM entries ORDER BY published DESC`; the handlers
 apply the `LIMIT`.
 */
module Listing {
  import opened Wrappers
  import opened Store
  import opened Http

  const HomeLimit: nat := 5
  const FeedLimit: nat := 10
  const AtomType: string := "application/atom+xml"

  /** The order the query returns: most recently published first. */
  predicate NewestFirst(rows: seq<Entry>) {
    forall i, j :: 0 <= i < j < |rows| ==> rows[i].published >= rows[j].published
  }

  /** SQL `LIMIT n`: the first `n` rows, or all of them when there are fewer. */
  function Limit(rows: seq<Entry>, n: nat): (r: seq<Entry>)
    ensures |r| == (if |rows| < n then |rows| else n)
    ensures r == rows[..|r|]
  {
    if |rows| <= n then rows else rows[..n]
  }

  /** `HomeHandler.get`: the five newest entries, or the compose page when there are none. */
  function Home(rows: seq<Entry>): (r: Reply)
    ensures r.session == Keep
    ensures r.response == Redirect("/compose") <==> rows == []
    ensures rows != [] ==> r.response == Render(HomePage(Limit(rows, HomeLimit)), None)
  {
    var entries := Limit(rows, HomeLimit);
    if entries == [] then Reply(Redirect("/compose"), Keep)
    else Reply(Render(HomePage(entries), None), Keep)
  }

  /** `FeedHandler.get`: the ten newest entries as an Atom document. */
  function Feed(rows: seq<Entry>): (r: Reply)
    ensures r.session == Keep
    ensures r.response.Render? && r.response.view.FeedDocument?
    ensures r.response.contentType == Some(AtomType)
    ensures var shown := r.response.view.entries;
            && |shown| == (if |rows| < FeedLimit then |rows| else FeedLimit)
            && forall i :: 0 <= i < |shown| ==> shown[i] == rows[i]
  {
    Reply(Render(FeedDocument(Limit(rows, FeedLimit)), Some(AtomType)), Keep)
  }

  /**
   A limit keeps the first rows: exactly `n` of them when there are that many,
   all of them otherwise. On newest-first rows they stay newest first, and no
   row left out is newer than one kept.
   */
  lemma {:induction false} LimitKeepsNewest(rows: seq<Entry>, n: nat)
    ensures var shown := Limit(rows, n);
            && |shown| == (if |rows| < n then |rows| else n)
            && (forall i :: 0 <= i < |shown| ==> shown[i] == rows[i])
            && (NewestFirst(rows) ==> NewestFirst(shown))
            && (NewestFirst(rows) ==> forall i, j :: 0 <= i < |shown| <= j < |rows| ==>
                  shown[i].published >= rows[j].published)
  {
  }

  /** With five or more entries the home page shows exactly the five newest. */
  lemma HomeShowsNewest(rows: seq<Entry>)
    requires NewestFirst(rows) && rows != []
    ensures Home(rows).response.Render?
    ensures var shown := Home(rows).response.view.entries;
            && 1 <= |shown| <= HomeLimit
            && (|rows| >= HomeLimit ==> |shown| == HomeLimit)
            && (forall i :: 0 <= i < |shown| ==> shown[i] == rows[i])
            && (forall i, j :: 0 <= i < |shown| <= j < |rows| ==> shown[i].published >= rows[j].published)
  {
    LimitKeepsNewest(rows, HomeLimit);
  }

  /** The feed holds at most ten entries, newest first, and none left out is newer. */
  lemma FeedShowsNewest(rows: seq<Entry>)
    requires NewestFirst(rows)
    ensures var shown := Feed(rows).response.view.entries;
            && |shown| <= FeedLimit
            && (|rows| >= FeedLimit ==> |shown| == FeedLimit)
            && NewestFirst(shown)
            && (forall i, j :: 0 <= i < |shown| <= j < |rows| ==> shown[i].published >= rows[j].published)
    ensures Feed(rows).response.contentType == Some("application/atom+xml")
  {
    LimitKeepsNewest(rows, FeedLimit);
  }
}

=== FILE: pyint.dfy ===
/**
 Python's `int(text)` and `str(n)` on base-10 integers: the conversions between an
 entry or author id and the text it travels as (the `id` form field, the session
 cookie value).
 */
module PyInt {
  import opened Wrappers
  import opened Text

  /** The body `int()` accepts after an optional sign: `digit ("_"? digit)*`. */
  predicate WellFormedDigits(s: string) {
    && |s| > 0
    && IsDigit(s[0])
    && IsDigit(s[|s| - 1])
    && (forall i :: 0 <= i < |s| ==> IsDigit(s[i]) || s[i] == '_')
    && (forall i :: 0 <= i < |s| - 1 ==> !(s[i] == '_' && s[i + 1] == '_'))
  }

  function DigitValue(c: char): (d: nat)
    requires IsDigit(c)
    ensures d < 10 && "0123456789"[d] == c
  {
    c as int - '0' as int
  }

  /** The value of a decimal numeral, reading digits left to right and skipping underscores. */
  function DigitsValue(s: string): (n: nat)
    decreases |s|
  {
    if |s| == 0 then 0
    else if IsDigit(s[|s| - 1]) then 10 * DigitsValue(s[..|s| - 1]) + DigitValue(s[|s| - 1])
    else DigitsValue(s[..|s| - 1])
  }

  /** `int()` on text already stripped: one optional `+` or `-`, then a well-formed digit body. */
  function ParseSigned(t: string): (r: Option<int>)
    ensures r.Some? ==> exists i :: 0 <= i < |t| && IsDigit(t[i])
    // Accepted: a digit body, or a sign followed by one.
    ensures r.Some? <==> WellFormedDigits(t) || (|t| > 0 && (t[0] == '+' || t[0] == '-') && WellFormedDigits(t[1..]))
    ensures r.Some? && WellFormedDigits(t) ==> r.value == DigitsValue(t)
    ensures r.Some? && !WellFormedDigits(t) ==> r.value == (if t[0] == '-' then -(DigitsValue(t[1..]) as int) else DigitsValue(t[1..]))
  {
    if |t| > 0 && (t[0] == '+' || t[0] == '-') then
      if WellFormedDigits(t[1..]) then
        assert IsDigit(t[1]);
        var v: int := DigitsValue(t[1..]);
        Some(if t[0] == '-' then -v else v)
      else None
    else if WellFormedDigits(t) then
      assert IsDigit(t[0]);
      Some(DigitsValue(t))
    else None
  }

  /**
   The information separators U+001C to U+001F. `str.strip()` counts them as
   whitespace, but `int()` skips only the other whitespace characters.
   */
  predicate IsSeparator(c: char) {
    '\U{1C}' <= c <= '\U{1F}'
  }

  predicate HasSeparator(s: string) {
    exists i :: 0 <= i < |s| && IsSeparator(s[i])
  }

  /** A separator is no sign, digit or underscore, so no signed digit body holds one. */
  lemma SeparatorRefused(t: string)
    requires HasSeparator(t)
    ensures ParseSigned(t).None?
  {
    var i :| 0 <= i < |t| && IsSeparator(t[i]);
    assert !IsDigit(t[i]) && t[i] != '_' && t[i] != '+' && t[i] != '-';
    assert i > 0 ==> t[1..][i - 1] == t[i];
  }

  /**
   `int(s)`: surrounding whitespace is ignored, then a signed digit body;
   anything else is a `ValueError`, modelled as `None`. A separator is refused
   wherever it stands: at either end `int()` does not skip it, and inside it is
   no digit.
   */
  function ParseInt(s: string): (r: Option<int>)
    ensures r.Some? ==> exists i :: 0 <= i < |s| && IsDigit(s[i])
    ensures HasSeparator(s) ==> r.None?
  {
    if HasSeparator(s) then None
    else
    var r := ParseSigned(Strip(s));
    if r.Some? then
      var i :| 0 <= i < |Strip(s)| && IsDigit(Strip(s)[i]);
      StripIsInfix(s);
      assert Strip(s)[i] in s;
      r
    else r
  }

  // `int()` on the texts an `id` argument may carry: surrounding whitespace, a
  // sign, leading zeros and single underscores between digits are accepted.

  lemma ParseIntPlus()
    ensures ParseInt("+7") == Some(7)
  {
    ParseIntUnspaced("+7");
    assert "+7"[1..] == "7";
  }

  lemma ParseIntMinus()
    ensures ParseInt("-7") == Some(-7)
  {
    ParseIntUnspaced("-7");
    assert "-7"[1..] == "7";
  }

  lemma ParseIntLeadingZeros()
    ensures ParseInt("007") == Some(7)
  {
    ParseIntUnspaced("007");
    ParseSignedLeadingZeros();
  }

  lemma ParseSignedLeadingZeros()
    ensures ParseSigned("007") == Some(7)
  {
    LeadingZerosValue();
  }

  lemma LeadingZerosValue()
    ensures DigitsValue("007") == 7
  {
    assert "007"[..2] == "00" && "00"[..1] == "0" && "0"[..0] == "";
  }

  lemma ParseIntUnderscore()
    ensures ParseInt("1_000") == Some(1000)
  {
    ParseIntUnspaced("1_000");
    UnderscoreValue();
  }

  lemma UnderscoreValue()
    ensures DigitsValue("1_000") == 1000
  {
    assert "1_000"[..4] == "1_00" && "1_00"[..3] == "1_0" && "1_0"[..2] == "1_";
    assert "1_"[..1] == "1" && "1"[..0] == "";
  }

  // Refused, so a `ValueError`: empty or blank text, trailing garbage, doubled
  // or leading underscores, and a bare sign.

  lemma ParseIntEmpty()
    ensures ParseInt("") == None
  {
  }

  lemma ParseIntBlank()
    ensures ParseInt(" ") == None
  {
    assert StripStart(" ") == "";
  }

  lemma ParseIntTrailing()
    ensures ParseInt("7a") == None
  {
    ParseIntUnspaced("7a");
  }

  lemma ParseIntDoubleUnderscore()
    ensures ParseInt("1__0") == None
  {
    ParseIntUnspaced("1__0");
    assert "1__0"[1] == '_' && "1__0"[2] == '_';
  }

  lemma ParseIntLeadingUnderscore()
    ensures ParseInt("_1") == None
  {
    ParseIntUnspaced("_1");
  }

  lemma ParseIntBareSign()
    ensures ParseInt("-") == None
  {
    ParseIntUnspaced("-");
    assert "-"[1..] == "";
  }

  lemma StripSpaced()
    ensures Strip(" 7\n") == "7"
  {
    assert StripStart(" 7\n") == "7\n";
    assert StripEnd("7\n") == "7";
  }

  /** Text without whitespace at either end parses as it stands. */
  lemma ParseIntUnspaced(s: string)
    requires |s| > 0 && NotSpace(s[0]) && NotSpace(s[|s| - 1])
    ensures ParseInt(s) == ParseSigned(s)
  {
    StripUnspaced(s);
    ParseIntStrips(s, s);
    if HasSeparator(s) {
      SeparatorRefused(s);
    }
  }

  lemma ParseIntSpaced()
    ensures ParseInt(" 7\n") == Some(7)
  {
    StripSpaced();
    ParseIntStrips(" 7\n", "7");
    SpacedHasNoSeparator();
    ParseSevenDigit();
  }

  lemma SpacedHasNoSeparator()
    ensures !HasSeparator(" 7\n")
  {
    var s := " 7\n";
    assert s[0] == ' ' && s[1] == '7' && s[2] == '\n';
  }

  lemma ParseSevenDigit()
    ensures ParseSigned("7") == Some(7)
  {
  }

  /** `int()` parses what is left after stripping, unless the text holds a separator. */
  lemma ParseIntStrips(s: string, t: string)
    requires Strip(s) == t
    ensures ParseInt(s) == if HasSeparator(s) then None else ParseSigned(t)
  {
  }

  /** `int("\x1c7")` is a `ValueError`, although `"\x1c7".strip()` is `"7"`. */
  lemma ParseIntSeparator()
    ensures ParseInt("\U{1C}7") == None
  {
    assert IsSeparator("\U{1C}7"[0]);
  }

  /** A trailing separator is refused as well: `int("7\x1f")` is a `ValueError`. */
  lemma ParseIntTrailingSeparator()
    ensures ParseInt("7\U{1F}") == None
  {
    assert IsSeparator("7\U{1F}"[1]);
  }

  /** `str(n)` for a natural number: decimal digits, no leading zero. */
  function NatToString(n: nat): (r: string)
    ensures |r| > 0 && (forall i :: 0 <= i < |r| ==> IsDigit(r[i]))
    ensures r[0] == '0' ==> n == 0
  {
    if n < 10 then [('0' as int + n) as char]
    else NatToString(n / 10) + [('0' as int + n % 10) as char]
  }

  /** `str(n)`: a `-` exactly for negative numbers, then the digits of the magnitude. */
  function IntToString(n: int): (r: string)
    ensures |r| > 0 && (r[0] == '-' <==> n < 0)
    ensures forall i :: (if n < 0 then 1 else 0) <= i < |r| ==> IsDigit(r[i])
    ensures n < 0 ==> |r| > 1
  {
    if n < 0 then "-" + NatToString(-n) else NatToString(n)
  }

  /** Every character of `Strip(s)` occurs in `s`. */
  lemma StripIsInfix(s: string)
    ensures forall c :: c in Strip(s) ==> c in s
  {
    var t := StripStart(s);
    assert forall c :: c in StripEnd(t) ==> c in t;
    assert forall c :: c in t ==> c in s;
  }

  lemma {:induction false} NatToStringValue(n: nat)
    ensures DigitsValue(NatToString(n)) == n
    decreases n
  {
    var r := NatToString(n);
    if n >= 10 {
      NatToStringValue(n / 10);
      assert r[..|r| - 1] == NatToString(n / 10);
    }
  }

  /** `int(str(n)) == n`: an id written as text reads back as the same id. */
  lemma ParseIntToString(n: int)
    ensures ParseInt(IntToString(n)) == Some(n)
  {
    var s := IntToString(n);
    assert NotSpace(s[0]) && NotSpace(s[|s| - 1]);
    assert forall i :: 0 <= i < |s| ==> !IsSeparator(s[i]);
    StripUnspaced(s);
    ParseSignedToString(n);
  }

  /** Text without whitespace at either end is its own strip. */
  lemma StripUnspaced(s: string)
    requires |s| > 0 && NotSpace(s[0]) && NotSpace(s[|s| - 1])
    ensures Strip(s) == s
  {
    assert StripStart(s) == s;
  }

  /** The digits `str` writes form a body `int()` accepts. */
  lemma NatToStringWellFormed(n: nat)
    ensures WellFormedDigits(NatToString(n))
  {
    var r := NatToString(n);
    assert IsDigit(r[0]) && IsDigit(r[|r| - 1]);
  }

  lemma ParseSignedToString(n: int)
    ensures ParseSigned(IntToString(n)) == Some(n)
  {
    var s := IntToString(n);
    var m: nat := if n < 0 then -n else n;
    var digits := NatToString(m);
    NatToStringWellFormed(m);
    NatToStringValue(m);
    if n < 0 {
      assert s[0] == '-' && s[1..] == digits;
    } else {
      assert s == digits && IsDigit(s[0]);
    }
  }
}

=== FILE: slug.dfy ===
/**
 The slug of a new entry: the URL-safe name derived from its title, and the
 collision loop that makes it unique among the stored entries.
 */
module Slug {
  import opened Text

  /**
   The two Unicode tables the pipeline consults, given as parameters: NFKD
   normalisation and Python's `\w` word-character class.
   */
  datatype Unicode = Unicode(nfkd: string -> string, isWord: char -> bool)

  /**
   What the pipeline relies on about `\w`: on ASCII it is `[A-Za-z0-9_]`, and no
   whitespace character is a word character.
   */
  ghost predicate ValidUnicode(u: Unicode) {
    && (forall c: char :: IsAscii(c) ==> (u.isWord(c) <==> AsciiWordChar(c)))
    && (forall c: char :: IsSpace(c) ==> !u.isWord(c))
  }

  /** A character a slug may contain: `[a-z0-9_-]`. */
  predicate SlugChar(c: char) {
    ('a' <= c <= 'z') || IsDigit(c) || c == '_' || c == '-'
  }

  /** Drops the leading non-word characters: what is left is the suffix from the first word character on. */
  function SkipNonWord(isWord: char -> bool, s: string): (r: string)
    ensures |r| <= |s| && r == s[|s| - |r|..]
    ensures forall i :: 0 <= i < |s| - |r| ==> !isWord(s[i])
    ensures r == [] || isWord(r[0])
    decreases |s|
  {
    if |s| > 0 && !isWord(s[0]) then SkipNonWord(isWord, s[1..]) else s
  }

  /** `re.sub(r"[^\w]+", " ", s)`: each maximal run of non-word characters becomes one space. */
  function Collapse(isWord: char -> bool, s: string): (r: string)
    ensures forall i :: 0 <= i < |r| ==> isWord(r[i]) || r[i] == ' '
    ensures |s| == 0 <==> |r| == 0
    ensures |s| > 0 ==> r[0] == (if isWord(s[0]) then s[0] else ' ')
    decreases |s|
  {
    if |s| == 0 then []
    else if isWord(s[0]) then [s[0]] + Collapse(isWord, s[1..])
    else [' '] + Collapse(isWord, SkipNonWord(isWord, s[1..]))
  }

  /** No two spaces in a row. */
  predicate SingleSpaced(r: string) {
    forall i :: 0 <= i < |r| - 1 ==> r[i] != ' ' || r[i + 1] != ' '
  }

  /** Where the space is no word character, the collapsed text never has two spaces in a row. */
  lemma {:induction false} CollapseSingle(isWord: char -> bool, s: string)
    requires !isWord(' ')
    ensures SingleSpaced(Collapse(isWord, s))
    decreases |s|
  {
    if |s| > 0 {
      var t := if isWord(s[0]) then s[1..] else SkipNonWord(isWord, s[1..]);
      var head := if isWord(s[0]) then s[0] else ' ';
      CollapseSingle(isWord, t);
      var r, rest := Collapse(isWord, s), Collapse(isWord, t);
      assert r == [head] + rest;
      assert |rest| > 0 ==> head != ' ' || rest[0] != ' ';
      forall i | 0 <= i < |r| - 1
        ensures r[i] != ' ' || r[i + 1] != ' '
      {
        if i > 0 {
          assert r[i] == rest[i - 1] && r[i + 1] == rest[i];
        }
      }
    }
  }

  /**
   The collapsed text ends with the text's last character when that is a word
   character, and, where the space is no word character, ends with a space
   exactly when the text ends outside a word.
   */
  lemma {:induction false} CollapseEnd(isWord: char -> bool, s: string)
    requires |s| > 0
    ensures var r := Collapse(isWord, s);
            && (isWord(s[|s| - 1]) ==> r[|r| - 1] == s[|s| - 1])
            && (!isWord(' ') ==> (r[|r| - 1] == ' ' <==> !isWord(s[|s| - 1])))
    decreases |s|
  {
    var r := Collapse(isWord, s);
    if isWord(s[0]) {
      var t := s[1..];
      assert r == [s[0]] + Collapse(isWord, t);
      if |t| > 0 {
        assert t[|t| - 1] == s[|s| - 1];
        CollapseEnd(isWord, t);
        CollapseLastOfTail(s[0], Collapse(isWord, t));
      } else {
        assert r == [s[0]];
      }
    } else {
      var t := SkipNonWord(isWord, s[1..]);
      assert r == [' '] + Collapse(isWord, t);
      SkipKeepsLast(isWord, s);
      if |t| > 0 {
        CollapseEnd(isWord, t);
        CollapseLastOfTail(' ', Collapse(isWord, t));
      } else {
        assert r == [' '];
      }
    }
  }

  /** The last character of a text with one more character in front is unchanged. */
  lemma CollapseLastOfTail(c: char, rest: string)
    requires |rest| > 0
    ensures ([c] + rest)[|rest|] == rest[|rest| - 1]
  {
  }

  /**
   Skipping the leading non-word characters after a non-word first character keeps
   the last character, or leaves nothing when the text ends outside a word.
   */
  lemma SkipKeepsLast(isWord: char -> bool, s: string)
    requires |s| > 0 && !isWord(s[0])
    ensures var t := SkipNonWord(isWord, s[1..]);
            && (|t| > 0 ==> t[|t| - 1] == s[|s| - 1])
            && (|t| == 0 ==> !isWord(s[|s| - 1]))
  {
    var u := s[1..];
    var t := SkipNonWord(isWord, u);
    if |t| == 0 && |u| > 0 {
      assert !isWord(u[|u| - 1]);
    }
  }

  /**
   The slug steps of `ComposeHandler.post` in order: normalise, collapse non-word
   runs to spaces, lower-case, strip, split, join with hyphens, drop non-ASCII,
   and fall back to "entry".
   */
  function Candidate(u: Unicode, title: string): (slug: string)
    ensures |slug| > 0
    ensures forall i :: 0 <= i < |slug| ==> IsAscii(slug[i])
  {
    var normalized := u.nfkd(title);
    var spaced := Collapse(u.isWord, normalized);
    var joined := Join("-", Split(Strip(LowerAll(spaced))));
    var ascii := AsciiOnly(joined);
    if ascii == [] then "entry" else ascii
  }

  /** The title's words, lower-cased: the maximal runs of word characters of its normal form. */
  function Words(u: Unicode, title: string): seq<string> {
    LowerEach(Runs(u.isWord, u.nfkd(title)))
  }

  // ---------------------------------------------------------------------------
  // The pipeline against its word-level description
  // ---------------------------------------------------------------------------

  lemma {:induction false} RunsSkip(isWord: char -> bool, s: string)
    ensures Runs(isWord, SkipNonWord(isWord, s)) == Runs(isWord, s)
    decreases |s|
  {
    if |s| > 0 && !isWord(s[0]) {
      RunsSkip(isWord, s[1..]);
    }
  }

  /** Collapsing separators does not change the words. */
  lemma {:induction false} RunsCollapse(isWord: char -> bool, s: string)
    requires !isWord(' ')
    ensures Runs(isWord, Collapse(isWord, s)) == Runs(isWord, s)
    decreases |s|
  {
    if |s| > 0 {
      var r := Collapse(isWord, s);
      if isWord(s[0]) {
        RunsCollapse(isWord, s[1..]);
        assert r[1..] == Collapse(isWord, s[1..]);
      } else {
        var k := SkipNonWord(isWord, s[1..]);
        RunsCollapse(isWord, k);
        RunsSkip(isWord, s[1..]);
        assert r[1..] == Collapse(isWord, k);
      }
    }
  }

  /**
   The pipeline joins the title's words with hyphens, drops non-ASCII, and falls
   back to "entry" when nothing is left.
   */
  lemma CandidateFromWords(u: Unicode, title: string)
    requires ValidUnicode(u)
    ensures var ascii := AsciiOnly(Join("-", Words(u, title)));
            Candidate(u, title) == if ascii == [] then "entry" else ascii
  {
    var normalized := u.nfkd(title);
    var spaced := Collapse(u.isWord, normalized);
    SplitStrip(LowerAll(spaced));
    SplitLower(spaced);
    assert forall i :: 0 <= i < |spaced| ==> NotSpace(spaced[i]) == u.isWord(spaced[i]);
    RunsAgree(NotSpace, u.isWord, spaced);
    RunsCollapse(u.isWord, normalized);
  }

  /** A character of a word is a lower-case word character, or non-ASCII. */
  lemma WordChar(u: Unicode, title: string, w: string, c: char)
    requires ValidUnicode(u)
    requires w in Words(u, title) && c in w
    ensures IsAscii(c) ==> SlugChar(c) && c != '-'
    ensures exists d :: d in u.nfkd(title) && u.isWord(d) && c == LowerChar(d)
  {
    var runs := Runs(u.isWord, u.nfkd(title));
    var n :| 0 <= n < |runs| && w == LowerAll(runs[n]);
    var i :| 0 <= i < |w| && w[i] == c;
    var d := runs[n][i];
    assert c == LowerChar(d);
    RunsShape(u.isWord, u.nfkd(title));
    assert runs[n] in runs && d in runs[n];
    assert u.isWord(d) && d in u.nfkd(title);
  }

  /** An ASCII character of the hyphen-joined words is a slug character. */
  lemma JoinedWordChar(u: Unicode, title: string, c: char)
    requires ValidUnicode(u)
    requires c in Join("-", Words(u, title)) && IsAscii(c)
    ensures SlugChar(c)
  {
    JoinChars("-", Words(u, title), c);
    if c !in "-" {
      var w :| w in Words(u, title) && c in w;
      WordChar(u, title, w, c);
    }
  }

  /** Slug characters only, none of them whitespace. */
  predicate SlugText(s: string) {
    forall i :: 0 <= i < |s| ==> SlugChar(s[i]) && !IsSpace(s[i])
  }

  /** The ASCII part of the hyphen-joined words is slug text. */
  lemma JoinedWordsAlphabet(u: Unicode, title: string)
    requires ValidUnicode(u)
    ensures SlugText(AsciiOnly(Join("-", Words(u, title))))
  {
    var ascii := AsciiOnly(Join("-", Words(u, title)));
    forall i | 0 <= i < |ascii|
      ensures SlugChar(ascii[i]) && !IsSpace(ascii[i])
    {
      JoinedWordChar(u, title, ascii[i]);
    }
  }

  /** Falling back to "entry" keeps slug text slug text. */
  lemma FallbackAlphabet(ascii: string)
    requires SlugText(ascii)
    ensures SlugText(if ascii == [] then "entry" else ascii)
  {
    assert SlugText("entry");
  }

  /** A derived slug is made of `[a-z0-9_-]` only; in particular it holds no whitespace. */
  lemma CandidateAlphabet(u: Unicode, title: string)
    requires ValidUnicode(u)
    ensures forall i :: 0 <= i < |Candidate(u, title)| ==> SlugChar(Candidate(u, title)[i])
    ensures forall i :: 0 <= i < |Candidate(u, title)| ==> !IsSpace(Candidate(u, title)[i])
  {
    CandidateFromWords(u, title);
    JoinedWordsAlphabet(u, title);
    FallbackAlphabet(AsciiOnly(Join("-", Words(u, title))));
  }

  // ---------------------------------------------------------------------------
  // Hyphen placement
  // ---------------------------------------------------------------------------

  /** Non-empty, no hyphen at either end, no two hyphens in a row. */
  predicate WellHyphenated(s: string) {
    && |s| > 0
    && s[0] != '-'
    && s[|s| - 1] != '-'
    && forall i :: 0 <= i < |s| - 1 ==> !(s[i] == '-' && s[i + 1] == '-')
  }

  lemma HyphenJoin(a: string, b: string)
    requires WellHyphenated(a) && WellHyphenated(b)
    ensures WellHyphenated(a + "-" + b)
  {
    var s := a + "-" + b;
    forall i | 0 <= i < |s| - 1
      ensures !(s[i] == '-' && s[i + 1] == '-')
    {
      if i < |a| - 1 {
        assert s[i] == a[i] && s[i + 1] == a[i + 1];
      } else if i == |a| - 1 {
        assert s[i] == a[i];
      } else if i == |a| {
        assert s[i + 1] == b[0];
      } else {
        assert s[i] == b[i - |a| - 1] && s[i + 1] == b[i - |a|];
      }
    }
  }

  lemma {:induction false} JoinHyphenated(ws: seq<string>)
    requires |ws| > 0
    requires forall w :: w in ws ==> |w| > 0 && '-' !in w
    ensures WellHyphenated(Join("-", ws))
    decreases |ws|
  {
    if |ws| == 1 {
      assert ws[0] in ws;
      assert ws[0][0] in ws[0] && ws[0][|ws[0]| - 1] in ws[0];
    } else {
      assert ws[0] in ws;
      assert ws[0][0] in ws[0] && ws[0][|ws[0]| - 1] in ws[0];
      assert forall w :: w in ws[1..] ==> w in ws;
      JoinHyphenated(ws[1..]);
      HyphenJoin(ws[0], Join("-", ws[1..]));
    }
  }

  /**
   For a title whose normal form is ASCII, the slug is either "entry" or its
   words joined by single hyphens, with no hyphen at either end. (With non-ASCII
   words dropped, a slug may start or end with a hyphen: see LeadingHyphen.)
   */
  lemma AsciiTitleSlug(u: Unicode, title: string)
    requires ValidUnicode(u)
    requires forall i :: 0 <= i < |u.nfkd(title)| ==> IsAscii(u.nfkd(title)[i])
    ensures Candidate(u, title) == "entry" || WellHyphenated(Candidate(u, title))
    ensures Words(u, title) == [] ==> Candidate(u, title) == "entry"
    ensures Words(u, title) != [] ==> Candidate(u, title) == Join("-", Words(u, title))
  {
    CandidateFromWords(u, title);
    var ws := Words(u, title);
    JoinOfAsciiWords(u, title);
    if ws != [] {
      WordsHyphenFree(u, title);
      JoinHyphenated(ws);
    }
  }

  lemma JoinOfAsciiWords(u: Unicode, title: string)
    requires ValidUnicode(u)
    requires forall i :: 0 <= i < |u.nfkd(title)| ==> IsAscii(u.nfkd(title)[i])
    ensures AsciiOnly(Join("-", Words(u, title))) == Join("-", Words(u, title))
  {
    var ws := Words(u, title);
    var joined := Join("-", ws);
    forall i | 0 <= i < |joined|
      ensures IsAscii(joined[i])
    {
      var c := joined[i];
      JoinChars("-", ws, c);
      if c !in "-" {
        var w :| w in ws && c in w;
        WordChar(u, title, w, c);
        var d :| d in u.nfkd(title) && u.isWord(d) && c == LowerChar(d);
        var j :| 0 <= j < |u.nfkd(title)| && u.nfkd(title)[j] == d;
      }
    }
  }

  lemma WordsHyphenFree(u: Unicode, title: string)
    requires ValidUnicode(u)
    requires forall i :: 0 <= i < |u.nfkd(title)| ==> IsAscii(u.nfkd(title)[i])
    ensures forall w :: w in Words(u, title) ==> |w| > 0 && '-' !in w
  {
    var runs := Runs(u.isWord, u.nfkd(title));
    RunsShape(u.isWord, u.nfkd(title));
    forall w | w in Words(u, title)
      ensures |w| > 0 && '-' !in w
    {
      var n :| 0 <= n < |runs| && w == LowerAll(runs[n]);
      assert runs[n] in runs;
      forall c | c in w
        ensures c != '-'
      {
        var i :| 0 <= i < |w| && w[i] == c;
        assert runs[n][i] in runs[n];
        WordChar(u, title, w, c);
      }
    }
  }

  /**
   Sample tables for the `LeadingHyphen` example only, not Python's: identity
   normalisation, and as `\w` the ASCII word characters plus every non-ASCII
   non-space.
   */
  function SampleUnicode(): (u: Unicode)
  {
    Unicode(s => s, c => AsciiWordChar(c) || (!IsAscii(c) && !IsSpace(c)))
  }

  lemma SampleUnicodeValid()
    ensures ValidUnicode(SampleUnicode())
  {
  }

  /** "日 go" becomes "-go": the non-ASCII word is dropped after the hyphen was placed. */
  lemma LeadingHyphen()
    ensures Candidate(SampleUnicode(), "\U{65E5} go") == "-go"
  {
    SampleUnicodeValid();
    CandidateFromWords(SampleUnicode(), "\U{65E5} go");
    SampleWords();
  }

  lemma SampleWords()
    ensures AsciiOnly(Join("-", Words(SampleUnicode(), "\U{65E5} go"))) == "-go"
  {
    SampleWordList();
    assert Join("-", ["\U{65E5}", "go"]) == "\U{65E5}-go";
    SampleAscii();
  }

  lemma SampleWordList()
    ensures Words(SampleUnicode(), "\U{65E5} go") == ["\U{65E5}", "go"]
  {
    SampleRuns();
    assert LowerAll("\U{65E5}") == "\U{65E5}";
    assert LowerAll("go") == "go";
  }

  lemma SampleAscii()
    ensures AsciiOnly("\U{65E5}-go") == "-go"
  {
    assert AsciiOnly("o") == "o";
    assert AsciiOnly("go") == "go";
    assert AsciiOnly("-go") == "-go";
  }

  lemma SampleRuns()
    ensures Runs(SampleUnicode().isWord, "\U{65E5} go") == ["\U{65E5}", "go"]
  {
    var p := SampleUnicode().isWord;
    var s := "\U{65E5} go";
    assert p('g') && p('o') && p('\U{65E5}') && !p(' ');
    assert s[1..] == " go" && s[1..][1..] == "go" && s[1..][1..][1..] == "o";
    assert "o"[1..] == [] && "go"[1..] == "o" && " go"[1..] == "go";
    assert Runs(p, "o") == ["o"];
    assert Runs(p, "go") == [['g'] + "o"] + ["o"][1..];
    assert ['g'] + "o" == "go" && ["o"][1..] == [];
    assert [['g'] + "o"] + ["o"][1..] == ["go"];
    assert Runs(p, " go") == ["go"];
  }

  // ---------------------------------------------------------------------------
  // Collision resolution
  // ---------------------------------------------------------------------------

  /** `k` copies of the suffix "-2". */
  function Dashes(k: nat): (r: string)
  {
    if k == 0 then "" else Dashes(k - 1) + "-2"
  }

  /** The slugs in `taken` at least as long as `slug`: finitely many, and fewer after each append. */
  function LongTaken(slug: string, taken: set<string>): set<string> {
    set t | t in taken && |t| >= |slug|
  }

  lemma LongTakenShrinks(slug: string, taken: set<string>)
    requires slug in taken
    ensures |LongTaken(slug + "-2", taken)| < |LongTaken(slug, taken)|
  {
    var a := LongTaken(slug + "-2", taken);
    var b := LongTaken(slug, taken);
    SubsetCard(a, b - {slug});
  }

  lemma {:induction false} SubsetCard<T>(a: set<T>, b: set<T>)
    requires a <= b
    ensures |a| <= |b|
    decreases |b|
  {
    if a != {} {
      var x :| x in a;
      SubsetCard(a - {x}, b - {x});
    }
  }

  /**
   The collision loop: while an entry already has `slug`, append "-2". The loop ends
   because `taken` is finite; the result is free.
   */
  function Resolve(slug: string, taken: set<string>): (r: string)
    ensures r !in taken
    decreases |LongTaken(slug, taken)|
  {
    if slug !in taken then slug
    else
      LongTakenShrinks(slug, taken);
      Resolve(slug + "-2", taken)
  }

  lemma {:induction false} DashesShift(k: nat)
    ensures "-2" + Dashes(k) == Dashes(k + 1)
    ensures |Dashes(k)| == 2 * k
  {
    if k > 0 {
      DashesShift(k - 1);
    }
  }

  /** The loop appends some number `k` of "-2" suffixes, every shorter candidate being taken. */
  lemma {:induction false} ResolveShape(slug: string, taken: set<string>) returns (k: nat)
    ensures Resolve(slug, taken) == slug + Dashes(k)
    ensures forall j :: 0 <= j < k ==> slug + Dashes(j) in taken
    decreases |LongTaken(slug, taken)|
  {
    if slug !in taken {
      k := 0;
    } else {
      LongTakenShrinks(slug, taken);
      var k' := ResolveShape(slug + "-2", taken);
      k := k' + 1;
      DashesShift(k');
      assert slug + "-2" + Dashes(k') == slug + Dashes(k);
      forall j | 0 <= j < k
        ensures slug + Dashes(j) in taken
      {
        if j > 0 {
          DashesShift(j - 1);
          assert slug + Dashes(j) == (slug + "-2") + Dashes(j - 1);
        } else {
          assert slug + Dashes(j) == slug;
        }
      }
    }
  }

  /**
   The resolved slug is `slug` followed by exactly `k` copies of "-2" if and only
   if that is the first free candidate of the sequence `slug`, `slug-2`, `slug-2-2`, ...
   */
  lemma ResolveIsLeastFree(slug: string, taken: set<string>, k: nat)
    ensures Resolve(slug, taken) == slug + Dashes(k)
        <==> (slug + Dashes(k) !in taken && forall j :: 0 <= j < k ==> slug + Dashes(j) in taken)
  {
    var k0 := ResolveShape(slug, taken);
    DashesShift(k);
    DashesShift(k0);
    if Resolve(slug, taken) == slug + Dashes(k) {
      assert |slug + Dashes(k)| == |slug + Dashes(k0)|;
    }
    if slug + Dashes(k) !in taken && forall j :: 0 <= j < k ==> slug + Dashes(j) in taken {
      if k < k0 {
        assert false;
      } else if k > k0 {
        assert false;
      }
    }
  }

  /** A second collision yields `-2-2`, not `-3`. */
  lemma SecondCollision(slug: string, taken: set<string>)
    requires slug in taken && slug + "-2" in taken && slug + "-2-2" !in taken
    ensures Resolve(slug, taken) == slug + "-2-2"
  {
    assert Dashes(2) == "-2-2";
    assert slug + "-2-2" == slug + Dashes(2);
    assert slug + Dashes(0) == slug && slug + Dashes(1) == slug + "-2";
    ResolveIsLeastFree(slug, taken, 2);
  }
}

=== FILE: store.dfy ===
/**
 The two tables of the blog, `authors` and `entries`, as maps from id to row,
 with the integrity constraints of the schema as an invariant.
 */
module Store {
  import opened Wrappers

  /** Timestamps are opaque instants; only `published` order matters anywhere. */
  type Timestamp = int

  /** A row of `authors(id, email, name, hashed_password)`. */
  datatype Author = Author(id: int, email: string, name: string, hashedPassword: string)

  /** A row of `entries(id, author_id, title, slug, markdown, html, published, updated)`. */
  datatype Entry = Entry(
    id: int,
    authorId: int,
    title: string,
    slug: string,
    markdown: string,
    html: string,
    published: Timestamp,
    updated: Timestamp)

  /**
   The range of an `id` column: `SERIAL` is PostgreSQL's 4-byte `integer`. The
   driver refuses a query argument outside it before the query runs.
   */
  const IdMin: int := -0x8000_0000
  const IdMax: int := 0x7FFF_FFFF

  predicate IdInRange(n: int) {
    IdMin <= n <= IdMax
  }

  /** The range holds exactly the 32-bit two's-complement values. */
  lemma IdRangeBounds()
    ensures IdInRange(2147483647) && !IdInRange(2147483648)
    ensures IdInRange(-2147483648) && !IdInRange(-2147483649)
  {
  }

  /** The database: both tables keyed by id, and the next value of each id sequence. */
  datatype Db = Db(
    authors: map<int, Author>,
    entries: map<int, Entry>,
    nextAuthorId: int,
    nextEntryId: int)

  /**
   The schema's constraints: rows are stored under their own id, ids come from
   the sequences, author emails and entry slugs are unique, and every entry's
   author exists.
   */
  predicate Valid(db: Db)
    // The next value of each sequence is a free id.
    ensures Valid(db) ==> db.nextAuthorId !in db.authors && db.nextEntryId !in db.entries
  {
    && (forall k :: k in db.authors ==> db.authors[k].id == k && k < db.nextAuthorId)
    && (forall k :: k in db.entries ==> db.entries[k].id == k && k < db.nextEntryId)
    && (forall a, b :: a in db.authors && b in db.authors && a != b ==>
          db.authors[a].email != db.authors[b].email)
    && (forall a, b :: a in db.entries && b in db.entries && a != b ==>
          db.entries[a].slug != db.entries[b].slug)
    && (forall k :: k in db.entries ==> db.entries[k].authorId in db.authors)
  }

  /** Every slug in use: what the collision loop's `SELECT ... WHERE slug = $1` probes. */
  function Slugs(entries: map<int, Entry>): (r: set<string>)
    ensures forall k :: k in entries ==> entries[k].slug in r
    ensures forall s :: s in r ==> exists k :: k in entries && entries[k].slug == s
  {
    set k | k in entries :: entries[k].slug
  }

  lemma {:induction false} LeastExists(s: set<int>, w: int)
    requires w in s
    ensures exists k :: k in s && forall j :: j in s ==> k <= j
    decreases |s|
  {
    if exists y :: y in s && y < w {
      var y :| y in s && y < w;
      LeastExists(s - {w}, y);
      var m :| m in s - {w} && forall j :: j in s - {w} ==> m <= j;
      forall j | j in s
        ensures m <= j
      {
        if j != w {
          assert j in s - {w};
        }
      }
    }
  }

  /** The least id of a non-empty set: a deterministic stand-in for "the row `fetchrow` returns". */
  function Least(s: set<int>): (k: int)
    requires exists w :: w in s
    ensures k in s && forall j :: j in s ==> k <= j
  {
    var w :| w in s;
    LeastExists(s, w);
    var k :| k in s && forall j :: j in s ==> k <= j;
    k
  }

  /** The ids of the entries holding `slug`. */
  function SlugIds(entries: map<int, Entry>, slug: string): set<int> {
    set k | k in entries && entries[k].slug == slug
  }

  /** The ids of the authors registered under `email`. */
  function EmailIds(authors: map<int, Author>, email: string): set<int> {
    set k | k in authors && authors[k].email == email
  }

  /** `SELECT * FROM entries WHERE slug = $1`, as the id of the row found. */
  function EntryWithSlug(entries: map<int, Entry>, slug: string): (r: Option<int>)
    ensures r.None? <==> slug !in Slugs(entries)
    ensures r.Some? ==> r.value in entries && entries[r.value].slug == slug
  {
    if slug in Slugs(entries) then
      var k :| k in entries && entries[k].slug == slug;
      assert k in SlugIds(entries, slug);
      Some(Least(SlugIds(entries, slug)))
    else None
  }

  /** `SELECT * FROM authors WHERE email = $1`, as the id of the row found. */
  function AuthorWithEmail(authors: map<int, Author>, email: string): (r: Option<int>)
    ensures r.None? <==> forall k :: k in authors ==> authors[k].email != email
    ensures r.Some? ==> r.value in authors && authors[r.value].email == email
  {
    if exists k :: k in authors && authors[k].email == email then
      var k :| k in authors && authors[k].email == email;
      assert k in EmailIds(authors, email);
      Some(Least(EmailIds(authors, email)))
    else None
  }

  /** With unique slugs, the entry found by slug is the one holding that slug. */
  lemma EntryWithSlugUnique(db: Db, k: int)
    requires Valid(db) && k in db.entries
    ensures EntryWithSlug(db.entries, db.entries[k].slug) == Some(k)
  {
  }

  /** With unique emails, the author found by email is the one holding that email. */
  lemma AuthorWithEmailUnique(db: Db, k: int)
    requires Valid(db) && k in db.authors
    ensures AuthorWithEmail(db.authors, db.authors[k].email) == Some(k)
  {
  }
}

=== FILE: text.dfy ===
/**
 Character classes and the string operations of Python's `str` that the slug
 pipeline uses: `isspace`, `lower` (on ASCII), `strip`, `split()`, `"-".join`
 and `encode("ascii", "ignore")`.
 */
module Text {

  /** A character that survives `encode("ascii", "ignore")`. */
  predicate IsAscii(c: char) {
    c as int < 128
  }

  /** Python's `str.isspace`: the characters `strip()` and `split()` treat as whitespace. */
  predicate IsSpace(c: char) {
    || c == ' '
    || ('\t' <= c <= '\r')                 // \t \n \x0b \x0c \r
    || ('\U{1C}' <= c <= '\U{1F}')         // file, group, record and unit separators
    || c == '\U{85}' || c == '\U{A0}' || c == '\U{1680}'
    || ('\U{2000}' <= c <= '\U{200A}')
    || c == '\U{2028}' || c == '\U{2029}' || c == '\U{202F}' || c == '\U{205F}'
    || c == '\U{3000}'
  }

  predicate NotSpace(c: char) {
    !IsSpace(c)
  }

  predicate IsDigit(c: char) {
    '0' <= c <= '9'
  }

  /** What Python's `\w` matches among ASCII characters: `[A-Za-z0-9_]`. */
  predicate AsciiWordChar(c: char) {
    ('a' <= c <= 'z') || ('A' <= c <= 'Z') || IsDigit(c) || c == '_'
  }

  /** `str.lower` on one character; only ASCII letters change (see README on non-ASCII). */
  function LowerChar(c: char): (r: char)
    ensures IsAscii(r) <==> IsAscii(c)
    ensures AsciiWordChar(r) <==> AsciiWordChar(c)
    ensures IsSpace(r) <==> IsSpace(c)
    ensures !('A' <= r <= 'Z')
    ensures !('A' <= c <= 'Z') ==> r == c
    ensures 'A' <= c <= 'Z' ==> r == "abcdefghijklmnopqrstuvwxyz"[c as int - 'A' as int]
  {
    if 'A' <= c <= 'Z' then (c as int + 32) as char else c
  }

  function LowerAll(s: string): (r: string)
  {
    seq(|s|, i requires 0 <= i < |s| => LowerChar(s[i]))
  }

  function LowerEach(ws: seq<string>): (r: seq<string>)
  {
    seq(|ws|, i requires 0 <= i < |ws| => LowerAll(ws[i]))
  }

  /** `str.lstrip()` */
  function StripStart(s: string): (r: string)
    ensures r == [] || NotSpace(r[0])
    ensures |r| <= |s| && r == s[|s| - |r|..]
    ensures forall i :: 0 <= i < |s| - |r| ==> IsSpace(s[i])
  {
    if |s| > 0 && IsSpace(s[0]) then StripStart(s[1..]) else s
  }

  /** `str.rstrip()` */
  function StripEnd(s: string): (r: string)
    ensures r == [] || NotSpace(r[|r| - 1])
    ensures |r| <= |s| && r == s[..|r|]
    ensures forall i :: |r| <= i < |s| ==> IsSpace(s[i])
  {
    if |s| > 0 && IsSpace(s[|s| - 1]) then StripEnd(s[..|s| - 1]) else s
  }

  /** `str.strip()`: `lstrip` then `rstrip`, leaving text that starts and ends with non-whitespace. */
  function Strip(s: string): (r: string)
    ensures r == [] || (NotSpace(r[0]) && NotSpace(r[|r| - 1]))
    ensures |r| <= |s|
  {
    StripEnd(StripStart(s))
  }

  /**
   The maximal runs of consecutive characters satisfying `p`, left to right.
   With `p == NotSpace` this is Python's `str.split()` without arguments;
   with `p` the word-character class it lists the words of a text.
   */
  function Runs(p: char -> bool, s: string): (r: seq<string>)
    ensures |s| > 0 && p(s[0]) ==> |r| > 0 && |r[0]| > 0 && r[0][0] == s[0]
    decreases |s|
  {
    if |s| == 0 then []
    else
      var rest := Runs(p, s[1..]);
      if !p(s[0]) then rest
      else if |s| > 1 && p(s[1]) then [[s[0]] + rest[0]] + rest[1..]
      else [[s[0]]] + rest
  }

  /** `str.split()`: non-empty words holding no whitespace. */
  function Split(s: string): (r: seq<string>)
    ensures forall i :: 0 <= i < |r| ==> |r[i]| > 0 && forall j :: 0 <= j < |r[i]| ==> NotSpace(r[i][j])
  {
    RunsShape(NotSpace, s);
    var r := Runs(NotSpace, s);
    assert forall i, j :: 0 <= i < |r| && 0 <= j < |r[i]| ==> r[i] in r && r[i][j] in r[i];
    r
  }

  /** The total length of a sequence of strings. */
  function TotalLength(ws: seq<string>): nat
    decreases |ws|
  {
    if |ws| == 0 then 0 else |ws[0]| + TotalLength(ws[1..])
  }

  /**
   `sep.join(ws)`: the parts with one separator between each two, so the first
   part comes first and the length is the parts' plus one separator per gap.
   */
  function Join(sep: string, ws: seq<string>): (r: string)
    ensures |r| == TotalLength(ws) + (if |ws| == 0 then 0 else (|ws| - 1) * |sep|)
    ensures |ws| > 0 ==> |ws[0]| <= |r| && r[..|ws[0]|] == ws[0]
    ensures |ws| == 1 ==> r == ws[0]
    decreases |ws|
  {
    if |ws| == 0 then ""
    else if |ws| == 1 then ws[0]
    else ws[0] + sep + Join(sep, ws[1..])
  }

  /** The characters of `s` satisfying `p`, in their order in `s`. */
  function Filter(p: char -> bool, s: string): (r: string)
    ensures forall i :: 0 <= i < |r| ==> p(r[i]) && r[i] in s
    ensures (forall i :: 0 <= i < |s| ==> p(s[i])) ==> r == s
    decreases |s|
  {
    if |s| == 0 then []
    else (if p(s[0]) then [s[0]] else []) + Filter(p, s[1..])
  }

  /** Filtering a concatenation filters each part. */
  lemma {:induction false} FilterAppend(p: char -> bool, a: string, b: string)
    ensures Filter(p, a + b) == Filter(p, a) + Filter(p, b)
    decreases |a|
  {
    if |a| > 0 {
      assert (a + b)[0] == a[0] && (a + b)[1..] == a[1..] + b;
      FilterAppend(p, a[1..], b);
      var head: string := if p(a[0]) then [a[0]] else [];
      assert Filter(p, a + b) == head + Filter(p, a[1..] + b);
      assert Filter(p, a) == head + Filter(p, a[1..]);
      assert head + (Filter(p, a[1..]) + Filter(p, b)) == (head + Filter(p, a[1..])) + Filter(p, b);
    } else {
      assert a + b == b;
    }
  }

  /** `s.encode("ascii", "ignore").decode("ascii")`: every non-ASCII character is dropped. */
  function AsciiOnly(s: string): (r: string)
    ensures forall i :: 0 <= i < |r| ==> IsAscii(r[i]) && r[i] in s
    ensures (forall i :: 0 <= i < |s| ==> IsAscii(s[i])) ==> r == s
  {
    Filter(IsAscii, s)
  }

  /** The ASCII filter keeps an ASCII character and drops any other. */
  lemma AsciiOnlyChar(c: char)
    ensures AsciiOnly([c]) == if IsAscii(c) then [c] else []
  {
    assert [c][1..] == [];
  }

  /** The ASCII filter works part by part: with `AsciiOnlyChar`, it keeps the ASCII characters in order. */
  lemma AsciiOnlyAppend(a: string, b: string)
    ensures AsciiOnly(a + b) == AsciiOnly(a) + AsciiOnly(b)
  {
    FilterAppend(IsAscii, a, b);
  }

  /** `"Hello World".lower()` */
  lemma LowerExample()
    ensures LowerAll("Hello World") == "hello world"
  {
  }

  // ---------------------------------------------------------------------------
  // Facts about Runs
  // ---------------------------------------------------------------------------

  /** Every run is non-empty, made of characters satisfying `p`, all taken from `s`. */
  lemma {:induction false} RunsShape(p: char -> bool, s: string)
    ensures forall w :: w in Runs(p, s) ==> |w| > 0
    ensures forall w, c :: w in Runs(p, s) && c in w ==> p(c) && c in s
    decreases |s|
  {
    if |s| > 0 {
      RunsShape(p, s[1..]);
      var rest := Runs(p, s[1..]);
      if p(s[0]) && |s| > 1 && p(s[1]) {
        var r := Runs(p, s);
        assert r == [[s[0]] + rest[0]] + rest[1..];
        forall w, c | w in r && c in w
          ensures p(c) && c in s
        {
          if w == [s[0]] + rest[0] {
            assert rest[0] in rest;
          } else {
            assert w in rest[1..];
          }
        }
      }
    }
  }

  /** The strings of `ws` one after the other. */
  function Concat(ws: seq<string>): string
    decreases |ws|
  {
    if |ws| == 0 then [] else ws[0] + Concat(ws[1..])
  }

  /** Read one after the other, the runs are the class characters of `s`, in order. */
  lemma {:induction false} RunsConcat(p: char -> bool, s: string)
    ensures Concat(Runs(p, s)) == Filter(p, s)
    decreases |s|
  {
    if |s| > 0 {
      RunsConcat(p, s[1..]);
      var rest := Runs(p, s[1..]);
      if p(s[0]) && |s| > 1 && p(s[1]) {
        var r := [[s[0]] + rest[0]] + rest[1..];
        assert r[1..] == rest[1..];
        assert Concat(rest) == rest[0] + Concat(rest[1..]);
        assert Concat(r) == [s[0]] + rest[0] + Concat(rest[1..]);
      } else if p(s[0]) {
        assert ([[s[0]]] + rest)[1..] == rest;
      }
    }
  }

  /** A run of `p` starts at `i`: a class character not preceded by one. */
  predicate StartsRun(p: char -> bool, s: string, i: int)
    requires 0 <= i < |s|
  {
    p(s[i]) && (i == 0 || !p(s[i - 1]))
  }

  /** The positions where a run of `p` starts. */
  function RunStarts(p: char -> bool, s: string): set<int> {
    set i | 0 <= i < |s| && StartsRun(p, s, i)
  }

  /** How many of the first `n` positions of `s` start a run of `p`. */
  function CountStarts(p: char -> bool, s: string, n: nat): nat
    requires n <= |s|
    decreases n
  {
    if n == 0 then 0 else CountStarts(p, s, n - 1) + (if StartsRun(p, s, n - 1) then 1 else 0)
  }

  lemma {:induction false} StartsBelowCard(p: char -> bool, s: string, n: nat)
    requires n <= |s|
    ensures |set i | 0 <= i < n && StartsRun(p, s, i)| == CountStarts(p, s, n)
    decreases n
  {
    if n > 0 {
      StartsBelowCard(p, s, n - 1);
      var below := set i | 0 <= i < n - 1 && StartsRun(p, s, i);
      if StartsRun(p, s, n - 1) {
        assert (set i | 0 <= i < n && StartsRun(p, s, i)) == below + {n - 1};
      } else {
        assert (set i | 0 <= i < n && StartsRun(p, s, i)) == below;
      }
    }
  }

  /** Past its second position, `s` starts runs where `s[1..]` does, one position later. */
  lemma {:induction false} CountShift(p: char -> bool, s: string, n: nat)
    requires 2 <= n <= |s|
    ensures CountStarts(p, s, n) + (if StartsRun(p, s[1..], 0) then 1 else 0)
         == (if StartsRun(p, s, 0) then 1 else 0) + (if StartsRun(p, s, 1) then 1 else 0)
            + CountStarts(p, s[1..], n - 1)
    decreases n
  {
    var t := s[1..];
    if n > 2 {
      CountShift(p, s, n - 1);
      assert s[n - 1] == t[n - 2] && s[n - 2] == t[n - 3];
      assert StartsRun(p, s, n - 1) == StartsRun(p, t, n - 2);
    } else {
      assert CountStarts(p, t, 1) == (if StartsRun(p, t, 0) then 1 else 0);
    }
  }

  /** One run per run start, counted position by position. */
  lemma {:induction false} RunsCountStarts(p: char -> bool, s: string)
    ensures |Runs(p, s)| == CountStarts(p, s, |s|)
    decreases |s|
  {
    if |s| == 1 {
      assert CountStarts(p, s, 1) == (if p(s[0]) then 1 else 0);
    } else if |s| > 1 {
      var t := s[1..];
      RunsCountStarts(p, t);
      CountShift(p, s, |s|);
      assert StartsRun(p, t, 0) == p(s[1]);
      assert StartsRun(p, s, 1) == (p(s[1]) && !p(s[0]));
    }
  }

  /** There is one run per run start. */
  lemma RunsCount(p: char -> bool, s: string)
    ensures |Runs(p, s)| == |RunStarts(p, s)|
  {
    RunsCountStarts(p, s);
    StartsBelowCard(p, s, |s|);
  }

  /** A non-empty text made only of class characters is one run. */
  lemma {:induction false} RunsWhole(p: char -> bool, s: string)
    requires |s| > 0 && forall i :: 0 <= i < |s| ==> p(s[i])
    ensures Runs(p, s) == [s]
    decreases |s|
  {
    if |s| == 1 {
      assert Runs(p, s[1..]) == [];
      assert [s[0]] == s;
    } else {
      RunsWhole(p, s[1..]);
      assert [s[0]] + s[1..] == s;
    }
  }

  /**
   A character outside the class separates: the runs of `a + [c] + b` are those
   of `a` followed by those of `b`. With `RunsWhole` this fixes every run, so
   runs are maximal.
   */
  lemma {:induction false} RunsSplit(p: char -> bool, a: string, c: char, b: string)
    requires !p(c)
    ensures Runs(p, a + [c] + b) == Runs(p, a) + Runs(p, b)
    decreases |a|
  {
    var s := a + [c] + b;
    if |a| == 0 {
      assert s[1..] == b;
      assert Runs(p, a) == [];
    } else {
      assert s[0] == a[0] && s[1..] == a[1..] + [c] + b;
      RunsSplit(p, a[1..], c, b);
      var rest, ra := Runs(p, s[1..]), Runs(p, a[1..]);
      assert rest == ra + Runs(p, b);
      if !p(a[0]) {
        assert Runs(p, s) == rest && Runs(p, a) == ra;
      } else if |a| == 1 {
        assert s[1] == c && ra == [];
        assert Runs(p, s) == [[a[0]]] + rest && Runs(p, a) == [[a[0]]];
      } else if p(a[1]) {
        RunsJoinFirst(a[0], ra, Runs(p, b));
        assert s[1] == a[1] && |ra| > 0;
        assert Runs(p, s) == [[a[0]] + rest[0]] + rest[1..];
        assert Runs(p, a) == [[a[0]] + ra[0]] + ra[1..];
      } else {
        assert s[1] == a[1];
        assert Runs(p, s) == [[a[0]]] + rest && Runs(p, a) == [[a[0]]] + ra;
      }
    }
  }

  /** Growing the first run of `x + y` by `c` only touches `x`'s first run. */
  lemma RunsJoinFirst(c: char, x: seq<string>, y: seq<string>)
    requires |x| > 0
    ensures [[c] + (x + y)[0]] + (x + y)[1..] == ([[c] + x[0]] + x[1..]) + y
  {
    assert (x + y)[1..] == x[1..] + y;
  }

  /** `split()` of a non-empty text without whitespace is that one word. */
  lemma SplitWord(w: string)
    requires |w| > 0 && forall i :: 0 <= i < |w| ==> NotSpace(w[i])
    ensures Split(w) == [w]
  {
    RunsWhole(NotSpace, w);
  }

  /** A whitespace character separates words: `split()` works on either side of it. */
  lemma SplitAtSpace(a: string, c: char, b: string)
    requires IsSpace(c)
    ensures Split(a + [c] + b) == Split(a) + Split(b)
  {
    RunsSplit(NotSpace, a, c, b);
  }

  /** A character outside the class at the end does not change the runs. */
  lemma {:induction false} RunsDropLast(p: char -> bool, s: string, c: char)
    requires !p(c)
    ensures Runs(p, s + [c]) == Runs(p, s)
    decreases |s|
  {
    if |s| == 0 {
      assert Runs(p, [c]) == Runs(p, [c][1..]);
    } else {
      assert (s + [c])[1..] == s[1..] + [c];
      RunsDropLast(p, s[1..], c);
    }
  }

  /** Runs depend only on how `p` classifies the characters that occur. */
  lemma {:induction false} RunsAgree(p: char -> bool, q: char -> bool, s: string)
    requires forall i :: 0 <= i < |s| ==> p(s[i]) == q(s[i])
    ensures Runs(p, s) == Runs(q, s)
    decreases |s|
  {
    if |s| > 0 {
      RunsAgree(p, q, s[1..]);
    }
  }

  /** Lower-casing commutes with splitting on whitespace. */
  lemma {:induction false} SplitLower(s: string)
    ensures Split(LowerAll(s)) == LowerEach(Split(s))
    decreases |s|
  {
    if |s| > 0 {
      SplitLower(s[1..]);
      assert LowerAll(s)[1..] == LowerAll(s[1..]);
      if NotSpace(s[0]) && |s| > 1 && NotSpace(s[1]) {
        SplitLowerExtend(s);
      } else if NotSpace(s[0]) {
        SplitLowerStart(s);
      }
    }
  }

  lemma LowerAllCons(c: char, s: string)
    ensures LowerAll([c] + s) == [LowerChar(c)] + LowerAll(s)
  {
  }

  lemma LowerEachCons(w: string, ws: seq<string>)
    ensures LowerEach([w] + ws) == [LowerAll(w)] + LowerEach(ws)
  {
  }

  /** The step of `SplitLower` where the first character extends the first word. */
  lemma SplitLowerExtend(s: string)
    requires |s| > 1 && NotSpace(s[0]) && NotSpace(s[1])
    requires LowerAll(s)[1..] == LowerAll(s[1..])
    requires Split(LowerAll(s[1..])) == LowerEach(Split(s[1..]))
    ensures Split(LowerAll(s)) == LowerEach(Split(s))
  {
    var rest := Split(s[1..]);
    var t := LowerAll(s);
    assert NotSpace(t[0]) && NotSpace(t[1]);
    var lrest := Split(t[1..]);
    assert Split(t) == [[t[0]] + lrest[0]] + lrest[1..];
    assert rest == [rest[0]] + rest[1..];
    LowerEachCons(rest[0], rest[1..]);
    LowerAllCons(s[0], rest[0]);
    assert Split(s) == [[s[0]] + rest[0]] + rest[1..];
    LowerEachCons([s[0]] + rest[0], rest[1..]);
  }

  /** The step of `SplitLower` where the first character is a word of its own so far. */
  lemma SplitLowerStart(s: string)
    requires |s| > 0 && NotSpace(s[0]) && (|s| > 1 ==> !NotSpace(s[1]))
    requires LowerAll(s)[1..] == LowerAll(s[1..])
    requires Split(LowerAll(s[1..])) == LowerEach(Split(s[1..]))
    ensures Split(LowerAll(s)) == LowerEach(Split(s))
  {
    var rest := Split(s[1..]);
    var lrest := Split(LowerAll(s[1..]));
    assert |s| > 1 ==> LowerAll(s)[1] == LowerChar(s[1]);
    assert LowerAll([s[0]]) == [LowerChar(s[0])];
    assert Split(LowerAll(s)) == [[LowerChar(s[0])]] + lrest;
    assert LowerEach(Split(s)) == [LowerAll([s[0]])] + LowerEach(rest);
  }

  /** Stripping first does not change what `split()` returns. */
  lemma SplitStrip(s: string)
    ensures Split(Strip(s)) == Split(s)
  {
    var t := StripStart(s);
    SplitStripStart(s);
    SplitStripEnd(t);
  }

  lemma {:induction false} SplitStripStart(s: string)
    ensures Split(StripStart(s)) == Split(s)
    decreases |s|
  {
    if |s| > 0 && IsSpace(s[0]) {
      SplitStripStart(s[1..]);
    }
  }

  lemma {:induction false} SplitStripEnd(s: string)
    ensures Split(StripEnd(s)) == Split(s)
    decreases |s|
  {
    if |s| > 0 && IsSpace(s[|s| - 1]) {
      var init := s[..|s| - 1];
      assert s == init + [s[|s| - 1]];
      RunsDropLast(NotSpace, init, s[|s| - 1]);
      SplitStripEnd(init);
    }
  }

  // ---------------------------------------------------------------------------
  // Facts about Join
  // ---------------------------------------------------------------------------

  /** Every character of a join is the separator's or one of the parts'. */
  lemma {:induction false} JoinChars(sep: string, ws: seq<string>, c: char)
    requires c in Join(sep, ws)
    ensures c in sep || exists w :: w in ws && c in w
    decreases |ws|
  {
    if |ws| > 1 {
      var tail := Join(sep, ws[1..]);
      assert Join(sep, ws) == ws[0] + sep + tail;
      if c in tail && c !in sep {
        JoinChars(sep, ws[1..], c);
        var w :| w in ws[1..] && c in w;
        assert w in ws;
      } else if c in ws[0] {
        assert ws[0] in ws;
      }
    }
  }

  /** Joining two non-empty lists of parts is joining each and putting one separator between. */
  lemma {:induction false} JoinAppend(sep: string, a: seq<string>, b: seq<string>)
    requires |a| > 0 && |b| > 0
    ensures Join(sep, a + b) == Join(sep, a) + sep + Join(sep, b)
    decreases |a|
  {
    var ab := a + b;
    assert ab[0] == a[0];
    if |a| == 1 {
      assert ab[1..] == b;
    } else {
      assert ab[1..] == a[1..] + b;
      JoinAppend(sep, a[1..], b);
      assert Join(sep, ab) == a[0] + sep + (Join(sep, a[1..]) + sep + Join(sep, b));
    }
  }

  /** `"-".join(["a", "b", "c"])` is `"a-b-c"`. */
  lemma JoinExample()
    ensures Join("-", ["a", "b", "c"]) == "a-b-c"
  {
    assert Join("-", ["c"]) == "c";
    assert Join("-", ["b", "c"]) == "b" + "-" + "c";
  }
}

=== FILE: wrappers.dfy ===
/** Optional values, standing for Python's `None` and for a row that a query did not find. */
module Wrappers {

  datatype Option<+T> = None | Some(value: T) {

    /** The value, or `default` when there is none (Python's `get_argument(name, default)`). */
    function GetOr(default: T): (r: T)
      ensures Some? ==> r == value
      ensures None? ==> r == default
    {
      match this
      case Some(v) => v
      case None => default
    }
  }
}
